=== FILE: README.md ===
# Execution engine of the IPPcode interpreter, in Dafny

This project models the execution engine of a PHP interpreter for
IPPcode, an XML-encoded three-address language (`student/Interpreter.php`).
The engine does the following:

- stores typed variables (`Variable`) in frames (`Frame`);
- keeps one global frame, an optional temporary frame and a stack of local
  frames (`FrameStack`), addressed by `GF@`, `TF@` and `LF@` references;
- sorts the program's instructions by their `order` attribute;
- checks statically that every jump names an existing label;
- runs the instructions once, in order (`InstructionList`). Each
  instruction is dispatched by `Instruction::execute`.

The model has two layers.

- **Value layer** (modules `Store`, `Strings`, `Escapes`, `Instructions`):
  - The frame stack is a value, `Store.Store`. Frames are numbered; frame 0
    is the global frame. The temporary frame and each local-stack entry hold
    a frame number, or `None` for PHP's `null`.
  - Two entries holding the same number are the same PHP object. This is how
    the model captures that `pushframe` leaves TF in place, so that TF and
    the top LF then alias.
  - `Step` is one instruction and `Run` is a whole list. `Labels` and
    `JumpCheck` are the static check, and `SortByOrder` is the stable sort.
- **Object layer** (modules `Frames`, `Engine`):
  - Classes with the source's mutable fields, and methods with its loops.
  - `FrameStack.Abs()` reads the heap back as a `Store.Store`.
  - Every method is proved to change `Abs()` exactly as the matching
    value-layer function says.
  - `Engine.InstructionList.Execute` is proved to print what `Run` prints
    and to end with `Run`'s status.
  - Module `Properties` proves, on the value layer, properties of these
    operations: aliasing of TF and LF, which errors lookup and `defvar`
    report and when they succeed, what a run prints, and where it stops.

Exceptions are values of `Base.Error`. A method or function that can throw
returns an `Outcome` (`Pass`/`Fail(e)`) or a `Result`. `EngineTypeError`
stands for a PHP `TypeError` raised by the runtime. The source triggers it in
two cases:
- a reference without `@`, whose name part is `null`, reaches a `string`
  parameter;
- `get_lf` returns the `null` that `pushframe` pushed when there was no TF.

An instruction is a record. It holds:
- the lower-cased opcode;
- the integer order;
- for each `argN` element present, its `type` attribute (if any) and its
  trimmed text;
- the trimmed text of the whole element, which is what `get_content`
  returns and for a label is its name.

## Behaviour of the code that the model keeps

The model follows the code, including where it does less than a complete
IPPcode interpreter would.

- `push_frame` pushes TF, even a null one, and neither checks nor clears it.
  After `createframe; pushframe`, `TF@x` and `LF@x` are the same variable
  (`Properties.PushedTfAliasesLf`, `Properties.DefinedThroughAlias`).
- Only `move`, `defvar`, `createframe`, `pushframe`, `popframe`, `write`,
  `dprint` and `break` are executed. Every other opcode raises
  NotImplemented, including `label`, the jumps and `call`. A program holding
  one of them never finishes normally (`Properties.ControlFlowStops`).
  Execution is one straight pass with no jumps.
- `check_jumps` checks only `jump`, `jumpifeq` and `jumpifneq`, not `call`.
  It does not check for duplicate labels or duplicate orders.
- `move` whose source is a variable raises NotImplemented. `write` prints
  only `int` (verbatim) and `string` (escapes decoded) literals. Any other
  type raises NotImplemented.
- `defvar` with an unknown frame prefix (`XX@a`) succeeds and inserts
  nothing (`Properties.UnknownPrefix`).
- The name of a reference is the text between its first and second `@`, as
  `explode("@", $iden)[1]` gives it. The frame prefix is upper-cased; the
  name is not.

## Model

| member | source | states |
|---|---|---|
| Store.Assign | student/Interpreter.php:140-152 | setting succeeds exactly for `int`, `bool`, `string`, `nil`; on success the identifier is kept and type and value are the pair written; otherwise an internal error |
| Store.SlotIndex | student/Interpreter.php:207-217 | the position found holds the identifier and no earlier one does; none is found exactly when no slot has it |
| Store.Insert | student/Interpreter.php:186-205 | an absent identifier is appended; a present one is replaced at its first position |
| Store.InsertAbsent | student/Interpreter.php:188-193 | an absent identifier is appended and the frame grows by one |
| Store.InsertPresent | student/Interpreter.php:195-204 | a present identifier is replaced at its first position; size and every other entry are unchanged |
| Store.InsertThenFind | student/Interpreter.php:186-205 | after an insertion the identifier is found and finds the inserted slot |
| Store.InsertKeepsOthers | student/Interpreter.php:186-205 | inserting one identifier leaves the search for every other identifier, and the slot it finds, unchanged |
| Store.Initial | student/Interpreter.php:243-248 | a fresh stack is an empty GF, a null TF and an empty local stack |
| Store.GetTf | student/Interpreter.php:254-261 | frame-access error exactly when TF is null, otherwise TF's frame |
| Store.GetLf | student/Interpreter.php:262-269 | frame-access error exactly on an empty local stack, type error exactly on a null top entry, otherwise the top entry's frame |
| Store.CreateFrame | student/Interpreter.php:270-273 | a new empty frame is added and becomes TF; the existing frames and the local stack are kept |
| Store.PushFrame | student/Interpreter.php:274-277 | TF, null or not, is appended to the local stack and stays TF; the frames are kept |
| Store.PopFrame | student/Interpreter.php:278-285 | frame-access error exactly on an empty local stack; otherwise exactly the top entry is removed |
| Store.Find | student/Interpreter.php:299-314 | a null name is a type error; otherwise the search succeeds exactly when the frame holds the name, the slot found carries it, and a miss is a variable-access error |
| Store.Designated | student/Interpreter.php:254-269 | GF is always available, LF exactly when `get_lf` returns a frame, TF exactly when it is not null |
| Store.LookupInternal | student/Interpreter.php:291-316 | a missing TF or an empty local stack is a frame-access error and a null top entry a type error; an unknown prefix is a variable-access error; otherwise the search runs in the designated frame, and a resolved reference names a slot there carrying the name part |
| Store.Lookup | student/Interpreter.php:318-331 | a frame-access error of `lookup_internal` becomes a variable-access error; every other result, success or error, passes through unchanged |
| Store.SetVar | student/Interpreter.php:516-517 | storing succeeds exactly when the reference resolves and the type is one a variable may hold; a failed lookup's exception is passed on and a bad type is an internal error; on success only the resolved slot changes, to the given type and value under its old name |
| Store.InsertVar | student/Interpreter.php:333-354 | a reference without a name part is a type error; with GF or an existing LF/TF the untyped name goes into that frame; a missing TF or empty local stack is a frame-access error, a null top entry a type error; an unknown prefix changes nothing |
| Store.DefVar | student/Interpreter.php:520-540 | a reference that resolves is a redefinition error; `defvar` succeeds exactly when the reference does not resolve, has a name, and its frame exists or its prefix is unknown; it then adds the untyped name to the designated frame (an unknown prefix adds nothing); a missing TF or empty local stack is a frame-access error |
| Strings.Upper | student/Interpreter.php:293 | `strtoupper` keeps the length and upper-cases each character |
| Strings.UpperIdempotent | student/Interpreter.php:293 | upper-casing twice is upper-casing once |
| Strings.Explode | student/Interpreter.php:293-294 | `explode("@", s)` gives at least one part, no part contains `@`, and joining the parts with `@` gives back `s` |
| Strings.ExplodeImplode | student/Interpreter.php:293-294 | splitting the `@`-join of `@`-free parts gives back the parts |
| Strings.FramePart | student/Interpreter.php:293-293 | a reference without `@` is its own frame part, upper-cased |
| Strings.NamePart | student/Interpreter.php:294-294 | the name part is null exactly when the reference holds no `@`, and it never contains `@` |
| Strings.ReferenceParts | student/Interpreter.php:293-294 | for `P@n` with `@`-free `P` and `n`, the frame part is `P` upper-cased and the name part is `n` |
| Escapes.DigitRun | student/Interpreter.php:488 | an escape takes one to three digits, as many as follow (greedy `[0-9]{1,3}`) |
| Escapes.Unescape | student/Interpreter.php:486-497 | decoding never lengthens the text |
| Escapes.Chr | student/Interpreter.php:489-489 | `chr` takes the code modulo 256 |
| Escapes.EscapeDecodes | student/Interpreter.php:486-491 | a backslash and a maximal run of one to three digits decode to the character of the run's decimal value modulo 256, and the rest decodes on its own |
| Escapes.UnescapePlain | student/Interpreter.php:486-497 | text without a backslash is returned unchanged |
| Escapes.UnescapeShrinks | student/Interpreter.php:486-497 | decoding shortens the text by exactly the number of escape digits consumed |
| Escapes.EscapeByteDecodes | student/Interpreter.php:488-491 | a backslash with the three-digit decimal code of a byte decodes to that byte, whatever follows |
| Escapes.UnescapeEscape | student/Interpreter.php:486-497 | decoding inverts the encoding of any byte string as three-digit escapes |
| Frames.Variable.constructor | student/Interpreter.php:131-137 | a new variable has its identifier, the empty type and no value |
| Frames.Variable.SetValue | student/Interpreter.php:140-162 | succeeds exactly for the four scalar types, after which `get_type`/`get_value` return the pair written; otherwise an internal error and nothing changes |
| Frames.FirstIndex | student/Interpreter.php:209-214 | the linear search returns the first position holding the identifier, or none exactly when there is none |
| Frames.ContainsIn | student/Interpreter.php:219-229 | true exactly when some variable has the identifier |
| Frames.Frame.constructor | student/Interpreter.php:179-182 | a new frame holds no variables |
| Frames.Frame.Contains | student/Interpreter.php:219-229 | `contains(id)` holds exactly when some stored variable has identifier `id` |
| Frames.Frame.Lookup | student/Interpreter.php:207-217 | null exactly when `contains` is false; otherwise the first stored variable with that identifier |
| Frames.Frame.InsertVar | student/Interpreter.php:186-205 | appends when the identifier is absent (size + 1); otherwise replaces its first holder in place, size and other entries unchanged |
| Frames.SlotsOfInsert | student/Interpreter.php:186-205 | the object-level insertion changes the frame's slots as the value-level `Insert` does |
| Frames.FrameStack.constructor | student/Interpreter.php:243-248 | a new stack is an empty GF, a null TF and an empty local stack |
| Frames.FrameStack.GetGf | student/Interpreter.php:250-253 | the global frame is frame 0 of the value model, holding exactly its slots |
| Frames.FrameStack.GetTf | student/Interpreter.php:254-261 | frame-access error exactly when TF is null; otherwise TF |
| Frames.FrameStack.GetLf | student/Interpreter.php:262-269 | frame-access error on an empty local stack, a type error on a null top, otherwise the top entry |
| Frames.FrameStack.CreateFrame | student/Interpreter.php:270-273 | TF becomes a new empty frame; GF's contents and the local stack are untouched |
| Frames.FrameStack.PushFrame | student/Interpreter.php:274-277 | the old TF, null or not, is appended to the local stack and stays TF |
| Frames.FrameStack.PopFrame | student/Interpreter.php:278-285 | frame-access error exactly on an empty local stack (nothing changes); otherwise exactly the top is removed; TF is unchanged |
| Frames.FrameStack.LookupInternal | student/Interpreter.php:291-316 | the variable found is the one the value model resolves the reference to, with the same errors |
| Frames.FrameStack.Lookup | student/Interpreter.php:318-331 | never a frame-access error; the variable found is the one the value model's lookup designates |
| Frames.FrameStack.InsertIntoFrame | student/Interpreter.php:340-353 | inserting into a numbered frame changes the stack as the value-level insertion into that frame |
| Frames.FrameStack.InsertVar | student/Interpreter.php:333-354 | a new untyped variable named by the name part goes into the prefixed frame, as the value-level `InsertVar` says, errors included |
| Instructions.ArgValue | student/Interpreter.php:413-434 | the trimmed text of argument `n`; an internal error exactly when the element is missing |
| Instructions.TypeAttr | student/Interpreter.php:453-484 | the `type` attribute of argument `n`; an internal error exactly when the element or the attribute is missing |
| Instructions.CompByOrder | student/Interpreter.php:437-448 | -1 exactly when the first order is lower, 1 exactly when it is higher, otherwise 0 |
| Instructions.CompByOrderPreorder | student/Interpreter.php:437-448 | the comparator is antisymmetric, is 0 exactly on equal orders, and its verdicts chain (a total preorder) |
| Instructions.SortByOrder | student/Interpreter.php:616 | the sorted list is a permutation of the input (its order and stability are `SortByOrderSorted`) |
| Instructions.SortByOrderSorted | student/Interpreter.php:616 | the sorted list is in nondecreasing order, is a permutation of the input, and keeps instructions of equal order in their input order |
| Instructions.IsLabel | student/Interpreter.php:397-400 | a label is not a jump and has no branch in `execute` |
| Instructions.Labels | student/Interpreter.php:647-658 | a string is a label exactly when some `label` instruction has it as content |
| Instructions.JumpFault | student/Interpreter.php:670-686 | only jumps are faulty: an internal error exactly when the first argument is missing, an unknown label exactly when it names no label |
| Instructions.JumpCheck | student/Interpreter.php:664-690 | the check can only fail with an unknown label or an internal error, and passes when the list holds no jump (its first-fault behaviour is `JumpCheckFirst`) |
| Instructions.JumpCheckFirst | student/Interpreter.php:664-690 | the check passes exactly when no instruction is faulty, and otherwise reports the fault of the first faulty instruction |
| Instructions.UnknownLabelExactly | student/Interpreter.php:664-690 | when every jump has a first argument, the check raises an unknown label exactly when some jump names a missing label, and passes otherwise |
| Instructions.DefVar | student/Interpreter.php:520-540 | `defvar` is an internal error without a first argument, and otherwise the value-level definition of its text |
| Instructions.Move | student/Interpreter.php:505-518 | a missing first argument or a missing type of the second is an internal error; a `var` source raises NotImplemented; any other type stores the literal exactly as `Store.SetVar` says, with its success condition and errors; on success the resolved slot holds the literal's type and text |
| Instructions.Write | student/Interpreter.php:557-575 | an `int` literal prints its text verbatim and a `string` literal its decoded text; a missing argument or type is an internal error, and any other type raises NotImplemented |
| Instructions.Step | student/Interpreter.php:499-590 | an opcode outside the handled set raises NotImplemented; `move`, `defvar` and `popframe` have exactly their own effect or exception; `createframe` and `pushframe` always succeed; `dprint` and `break` change nothing; `write` prints exactly `Write`'s text and leaves the frames as they were, or throws `Write`'s exception |
| Instructions.Run | student/Interpreter.php:700-706 | running a list prints at most one text per instruction and ends in a well-formed stack |
| Instructions.RunAppend | student/Interpreter.php:700-706 | running a concatenation is running the first list and, if it did not throw, the second from where it left off |
| Instructions.RunFrom | student/Interpreter.php:702-705 | the run from position `i` is the step at `i` followed by the run from `i + 1`, or that step's exception with nothing printed |
| Instructions.RunAfterOk | student/Interpreter.php:703-705 | when instruction `i` completes, the run from `i` ends as the run from `i + 1` does, after what `i` printed |
| Instructions.RunAfterErr | student/Interpreter.php:703-705 | when instruction `i` throws, the run from `i` ends with that exception and prints nothing |
| Engine.SetReferenced | student/Interpreter.php:516-517 | looking the target up and storing into its variable changes the stack exactly as `SetVar` says; on an exception nothing changes |
| Engine.ExecMove | student/Interpreter.php:505-518 | `move` changes the stack exactly as `Move` says, and on an exception leaves it unchanged |
| Engine.DefineReferenced | student/Interpreter.php:524-539 | the lookup, its caught exceptions and the insertion change the stack exactly as `Store.DefVar` says; on an exception nothing changes |
| Engine.ExecDefVar | student/Interpreter.php:520-540 | `defvar` changes the stack exactly as `DefVar` says, and on an exception leaves it unchanged |
| Engine.ExecWrite | student/Interpreter.php:557-575 | `write` appends exactly `Write`'s text to the output, or raises its error with the output unchanged |
| Engine.ExecVariableInstruction | student/Interpreter.php:505-540 | `move`/`defvar` have the effect `Step` gives them |
| Engine.ExecFrameInstruction | student/Interpreter.php:542-555 | `createframe`/`pushframe`/`popframe` have the effect `Step` gives them |
| Engine.ExecuteInstruction | student/Interpreter.php:499-590 | `execute` changes the stack and the output exactly as `Step` says; when it throws, neither changes |
| Engine.InstructionList.constructor | student/Interpreter.php:606-619 | the list is the stable sort of the instructions: sorted by order, a permutation, equal orders in input order |
| Engine.InstructionList.GetLabels | student/Interpreter.php:647-658 | the loop collects exactly the label contents, in list order |
| Engine.InstructionList.CheckJumps | student/Interpreter.php:664-690 | the loop's verdict is `JumpCheck` against the list's labels |
| Engine.InstructionList.Execute | student/Interpreter.php:700-706 | with a fresh frame stack, the output gains exactly what `Run` prints and the result is `Run`'s status |
| Engine.ExecuteAt | student/Interpreter.php:703-705 | one loop iteration: an exception ends the run there with nothing printed; otherwise the run goes on from the next instruction |
| Engine.Interpreter.Print | student/Interpreter.php:747-750 | `print` appends the text to standard output |
| Engine.Interpreter.Execute | student/Interpreter.php:737-743 | a failed jump check stops the program before any output; otherwise the output is what `Run` prints, and the result is 0 or the exception |
| Properties.PopAfterPush | student/Interpreter.php:274-285 | `popframe` right after `pushframe` restores the stack |
| Properties.PopFrameFails | student/Interpreter.php:278-285 | `popframe` fails exactly on an empty local stack, with a frame-access error; otherwise the frames and TF are kept |
| Properties.CreateFrameFresh | student/Interpreter.php:270-273 | after `createframe`, TF is a new empty frame, every existing frame is as it was, and the local stack is unchanged |
| Properties.PushedTfAliasesLf | student/Interpreter.php:274-277 | after `pushframe` with a TF, the top LF is TF, and `LF@n` and `TF@n` resolve alike |
| Properties.AliasedLookup | student/Interpreter.php:291-316 | while the top LF is TF, `LF@n` and `TF@n` resolve alike |
| Properties.DefinedThroughAlias | student/Interpreter.php:333-354 | a variable defined as `TF@n` after `pushframe` is found as `LF@n`, untyped |
| Properties.PushWithoutTf | student/Interpreter.php:262-269 | pushing with no TF puts null on top, and every `LF@` lookup or definition then fails with a type error |
| Properties.SamePartsSameEffect | student/Interpreter.php:291-294 | lookup and definition depend only on the frame part and the name part of the reference |
| Properties.PrefixCaseInsensitive | student/Interpreter.php:293 | the frame prefix is case-insensitive for lookup and definition; the name is matched exactly |
| Properties.LookupOutcome | student/Interpreter.php:291-331 | with its frame available, a reference resolves exactly when the frame holds its name; a failed lookup reports a variable-access error or a type error |
| Properties.LookupFailures | student/Interpreter.php:254-329 | `TF@n` without a TF, `LF@n` on an empty local stack and `GF@n` for an absent name are all variable-access errors |
| Properties.DefVarFailures | student/Interpreter.php:333-354 | `defvar` into a missing TF or on an empty local stack is a frame-access error |
| Properties.DefVarSucceeds | student/Interpreter.php:520-540 | `defvar` of a name absent from an existing frame succeeds and appends exactly that untyped name to that frame |
| Properties.UnknownPrefix | student/Interpreter.php:297-314 | an unknown prefix never resolves (variable-access error); `defvar` of it inserts nothing, or is a type error without a name |
| Properties.InsertedIsFound | student/Interpreter.php:333-354 | a name inserted into the frame its prefix designates is then found there, untyped |
| Properties.DefVarThenLookup | student/Interpreter.php:520-540 | after a successful `defvar` with a known prefix, the reference resolves to an untyped variable named by its name part |
| Properties.DefVarKeepsOthers | student/Interpreter.php:520-540 | `defvar` leaves the resolution and the slot of every reference with another name unchanged |
| Properties.LookupAfterInsert | student/Interpreter.php:333-354 | inserting a slot leaves the resolution and the slot of every reference to another name unchanged |
| Properties.LookupAfterSetSlot | student/Interpreter.php:140-152 | assigning a variable does not change what any reference resolves to |
| Properties.MoveThenLookup | student/Interpreter.php:505-518 | after a successful `move` the target resolves to the same variable, which now holds the literal's type and text |
| Properties.MoveUnresolved | student/Interpreter.php:505-518 | `move` into a reference that does not resolve fails |
| Properties.RunPrintsWrites | student/Interpreter.php:557-575 | a run's output is a prefix of the texts of its `write` instructions, and is all of them when nothing throws |
| Properties.UnhandledStops | student/Interpreter.php:586-589 | a run that reaches an opcode `execute` has no branch for ends in an exception |
| Properties.ControlFlowStops | student/Interpreter.php:586-589 | a label is collected by `get_labels` and never faulted by `check_jumps`, a jump whose target is a collected label is accepted, and yet a `label`, a jump or a `call` makes every run end in an exception |

## Left out

- DOM and XML handling are not modelled: `Instruction::__construct`, `check_xml`, `InstructionList::check_xml`, the reading of arguments and attributes through `getElementsByTagName`, and `XMLStructureError`. The reason is that these are calls into PHP's DOM library. The model starts from the instruction record described above.
- Loading the source document and `trim` are not modelled. The record already holds trimmed texts.
- Debug printing (`dprint_stderr`, `dprintinfo`, `dprintstring`, `dlog`, `dprint_instructions`) is left out, because it only writes to standard error.
- The return codes the exceptions carry (IPP\Core's `ReturnCode`) are left out: IPP\Core is not part of this model. The model reports the exception itself.
- Output is a sequence of the strings passed to `print`, not a stream of bytes.
- `Instructions.JumpFault`: models `in_array`'s loose `==` as exact string equality. The two differ only when both the target and a label are numeric strings, such as `"1"` and `"01"`.
- `Escapes.Unescape`: models `chr` of the escape's decimal value modulo 256 as the character with that code. PHP's byte string and its encoding are not modelled. The null return of `preg_replace_callback` on a regex failure cannot occur in this model.
- `Frames.Variable.GetValue`: returns `None` for a variable that was never assigned. PHP instead raises an `Error` when it reads the uninitialised typed property. No modelled instruction reads a variable's value.
- Exceptions propagating out of `Interpreter::execute` to IPP\Core's top level are not modelled. The model returns the exception that ended the run as its status, together with the output printed up to that point.
- Garbage collection is not modelled. A popped or replaced frame keeps its number in the value model, but no reference reaches it again.
- Aliasing beyond TF and the top LF: the model has no variable shared by two frames. The source cannot create one, because `insert_var` always inserts a fresh `Variable`.

=== FILE: base.dfy ===
/**
 * Shared vocabulary of the interpreter model: optional values, the
 * exception classes of the engine as an error datatype, and the
 * failure-compatible result types that replace PHP's exceptions.
 */
module Base {

  datatype Option<+T> = None | Some(value: T)

  /**
   * One constructor per exception the core can raise.
   *  - UnknownLabel, FrameAccess, VariableAccess, VariableRedefinition:
   *    the engine's own exception classes;
   *  - InternalError: IPP\Core's InternalErrorException;
   *  - NotImplemented: IPP\Core's NotImplementedException;
   *  - EngineTypeError: a PHP TypeError raised by the runtime itself, when a
   *    null reaches a parameter or return value declared as a non-null type.
   */
  datatype Error =
    | UnknownLabel
    | FrameAccess
    | VariableAccess
    | VariableRedefinition
    | InternalError
    | NotImplemented
    | EngineTypeError

  /** A value or the exception that replaced it. */
  datatype Result<+T> = Ok(value: T) | Err(error: Error) {
    predicate IsFailure() { Err? }

    function PropagateFailure<U>(): Result<U>
      requires Err?
    {
      Err(error)
    }

    function Extract(): T
      requires Ok?
    {
      value
    }
  }

  /** Completion of a `void` operation: it returned, or it threw. */
  datatype Outcome = Pass | Fail(error: Error) {
    predicate IsFailure() { Fail? }

    function PropagateFailure(): Outcome
      requires Fail?
    {
      this
    }
  }
}

=== FILE: engine.dfy ===
/**
 * The imperative engine: `Instruction::execute` against a heap `FrameStack`,
 * the `InstructionList` (sorted at construction, statically checked, run in
 * one straight pass) and the output side of `Interpreter`.
 *
 * Every method is proved against module Instructions: executing an
 * instruction changes `FrameStack.Abs()` and the output exactly as `Step`
 * says, and executing the list as `Run` says.
 */
module Engine {
  import opened Base
  import opened Escapes
  import Store
  import opened Frames
  import opened Instructions

  /** `move`: on success the looked-up variable holds the literal, and nothing else changes. */
  method ExecMove(ins: Instruction, fs: FrameStack) returns (r: Outcome)
    requires fs.Valid()
    modifies fs.Repr
    ensures fs.Valid() && fs.Repr == old(fs.Repr)
    ensures match Instructions.Move(old(fs.Abs()), ins)
            case Ok(st) => r == Pass && fs.Abs() == st
            case Err(e) => r == Fail(e) && fs.Abs() == old(fs.Abs())
  {
    var target := ArgValue(ins, 1);
    var srcType := TypeAttr(ins, 2);
    if target.Err? {
      r := Fail(target.error);
    } else if srcType.Err? {
      r := Fail(srcType.error);
    } else if srcType.value == "var" {
      r := Fail(NotImplemented);
    } else {
      var srcValue := ArgValue(ins, 2).value;
      r := SetReferenced(fs, target.value, srcType.value, srcValue);
    }
  }

  /** `$fs->lookup(iden)->set_value(t, v)`: the stack changes as `Store.SetVar` says. */
  method SetReferenced(fs: FrameStack, iden: string, t: string, v: string) returns (r: Outcome)
    requires fs.Valid()
    modifies fs.Repr
    ensures fs.Valid() && fs.Repr == old(fs.Repr)
    ensures match Store.SetVar(old(fs.Abs()), iden, t, v)
            case Ok(st) => r == Pass && fs.Abs() == st
            case Err(e) => r == Fail(e) && fs.Abs() == old(fs.Abs())
  {
    var found := fs.Lookup(iden);
    if found.Err? {
      r := Fail(found.error);
    } else {
      ghost var st := fs.Abs();
      ghost var at := Store.Lookup(st, iden).value;
      var targetVar := found.value;
      ghost var slot := targetVar.AsSlot();
      assert slot == Store.SlotAt(st, at);
      r := targetVar.SetValue(t, v);
      fs.AssignedValid(at);
      fs.AssignedAbs(at);
      if r.Fail? {
        assert st.frames[at.0][at.1 := slot] == st.frames[at.0];
        assert st.frames[at.0 := st.frames[at.0]] == st.frames;
      }
    }
  }

  /** `defvar`: a name that already resolves is a redefinition; otherwise the variable is inserted. */
  method ExecDefVar(ins: Instruction, fs: FrameStack) returns (r: Outcome)
    requires fs.Valid()
    modifies fs.Repr
    ensures fs.Valid() && fresh(fs.Repr - old(fs.Repr))
    ensures match Instructions.DefVar(old(fs.Abs()), ins)
            case Ok(st) => r == Pass && fs.Abs() == st
            case Err(e) => r == Fail(e) && fs.Abs() == old(fs.Abs())
  {
    var iden := ArgValue(ins, 1);
    if iden.Err? {
      r := Fail(iden.error);
    } else {
      r := DefineReferenced(fs, iden.value);
    }
  }

  /** The `try { lookup } catch` of `defvar`, then the insertion of a new variable. */
  method DefineReferenced(fs: FrameStack, iden: string) returns (r: Outcome)
    requires fs.Valid()
    modifies fs.Repr
    ensures fs.Valid() && fresh(fs.Repr - old(fs.Repr))
    ensures match Store.DefVar(old(fs.Abs()), iden)
            case Ok(st) => r == Pass && fs.Abs() == st
            case Err(e) => r == Fail(e) && fs.Abs() == old(fs.Abs())
  {
    var found := fs.Lookup(iden);
    if found.Ok? {
      r := Fail(VariableRedefinition);
    } else if found.error != FrameAccess && found.error != VariableAccess {
      r := Fail(found.error);
    } else {
      var v := new Variable(iden);
      r := fs.InsertVar(v);
    }
  }

  /** `write`: prints the literal's text, decoding escapes in a string literal. */
  method ExecWrite(ins: Instruction, inter: Interpreter) returns (r: Outcome)
    modifies inter
    ensures match Write(ins)
            case Ok(s) => r == Pass && inter.stdout == old(inter.stdout) + [s]
            case Err(e) => r == Fail(e) && inter.stdout == old(inter.stdout)
  {
    var t := TypeAttr(ins, 1);
    if t.Err? {
      return Fail(t.error);
    }
    if t.value == "int" {
      inter.Print(ArgValue(ins, 1).value);
    } else if t.value == "string" {
      var text := ArgValue(ins, 1).value;
      inter.Print(Unescape(text));
    } else {
      return Fail(NotImplemented);
    }
    r := Pass;
  }

  /** The frame-stack effect of one instruction, as `Step` gives it. */
  ghost predicate Stepped(step: Result<Effect>, before: Store.Store, after: Store.Store, r: Outcome)
  {
    match step
    case Ok(eff) => r == Pass && after == eff.store
    case Err(e) => r == Fail(e) && after == before
  }

  /** `move` and `defvar`: the instructions that touch variables. */
  method ExecVariableInstruction(ins: Instruction, fs: FrameStack) returns (r: Outcome)
    requires ins.opcode == "move" || ins.opcode == "defvar"
    requires fs.Valid()
    modifies fs.Repr
    ensures fs.Valid() && fresh(fs.Repr - old(fs.Repr))
    ensures Stepped(Step(old(fs.Abs()), ins), old(fs.Abs()), fs.Abs(), r)
  {
    if ins.opcode == "move" {
      r := ExecMove(ins, fs);
    } else {
      r := ExecDefVar(ins, fs);
    }
  }

  /** `createframe`, `pushframe` and `popframe`. */
  method ExecFrameInstruction(ins: Instruction, fs: FrameStack) returns (r: Outcome)
    requires ins.opcode == "createframe" || ins.opcode == "pushframe" || ins.opcode == "popframe"
    requires fs.Valid()
    modifies fs.Repr
    ensures fs.Valid() && fresh(fs.Repr - old(fs.Repr))
    ensures Stepped(Step(old(fs.Abs()), ins), old(fs.Abs()), fs.Abs(), r)
  {
    if ins.opcode == "createframe" {
      fs.CreateFrame();
      r := Pass;
    } else if ins.opcode == "pushframe" {
      fs.PushFrame();
      r := Pass;
    } else {
      r := fs.PopFrame();
    }
  }

  /**
   * `Instruction::execute`: the frame stack and the output change as `Step`
   * says; when the instruction throws, neither changes.
   */
  method ExecuteInstruction(ins: Instruction, fs: FrameStack, inter: Interpreter) returns (r: Outcome)
    requires fs.Valid() && inter !in fs.Repr
    modifies fs.Repr, inter
    ensures fs.Valid() && fresh(fs.Repr - old(fs.Repr))
    ensures match Step(old(fs.Abs()), ins)
            case Ok(eff) => r == Pass && fs.Abs() == eff.store && inter.stdout == old(inter.stdout) + eff.printed
            case Err(e) => r == Fail(e) && fs.Abs() == old(fs.Abs()) && inter.stdout == old(inter.stdout)
  {
    var op := ins.opcode;
    if op == "move" || op == "defvar" {
      r := ExecVariableInstruction(ins, fs);
    } else if op == "createframe" || op == "pushframe" || op == "popframe" {
      r := ExecFrameInstruction(ins, fs);
    } else if op == "write" {
      r := ExecWrite(ins, inter);
    } else if op == "dprint" || op == "break" {
      r := Pass;
    } else {
      r := Fail(NotImplemented);
    }
  }

  /** The instructions of a program, sorted by `order` when the list is built. */
  class InstructionList {
    var list: seq<Instruction>

    /** The list is the stable sort of the instructions by order. */
    constructor (instructions: seq<Instruction>)
      ensures list == SortByOrder(instructions)
      ensures SortedByOrder(list) && multiset(list) == multiset(instructions)
      ensures forall k :: WithOrder(list, k) == WithOrder(instructions, k)
    {
      list := SortByOrder(instructions);
      SortByOrderSorted(instructions);
    }

    /** `get_labels`. */
    method GetLabels() returns (labels: seq<string>)
      ensures labels == Labels(list)
      ensures forall s :: s in labels <==> exists i :: 0 <= i < |list| && IsLabel(list[i]) && list[i].content == s
    {
      labels := [];
      var i := 0;
      while i < |list|
        invariant 0 <= i <= |list|
        invariant labels == Labels(list[..i])
      {
        assert list[..i + 1][..i] == list[..i];
        if IsLabel(list[i]) {
          labels := labels + [list[i].content];
        }
        i := i + 1;
      }
      assert list[..|list|] == list;
    }

    /** `check_jumps`: the first jump without a first argument or with an unknown target throws. */
    method CheckJumps() returns (r: Outcome)
      ensures r == JumpCheck(list, Labels(list))
    {
      var labels := GetLabels();
      var i := 0;
      while i < |list|
        invariant 0 <= i <= |list|
        invariant JumpCheck(list, labels) == JumpCheck(list[i..], labels)
      {
        var ins := list[i];
        assert list[i..][0] == ins && list[i..][1..] == list[i + 1..];
        if IsJump(ins) {
          var desiredLabel := ArgValue(ins, 1);
          if desiredLabel.Err? {
            return Fail(desiredLabel.error);
          }
          if desiredLabel.value !in labels {
            return Fail(UnknownLabel);
          }
        }
        i := i + 1;
      }
      r := Pass;
    }

    /** `InstructionList::execute`: one pass over the list with a fresh frame stack. */
    method Execute(inter: Interpreter) returns (r: Outcome)
      modifies inter
      ensures r == Run(Store.Initial(), list).status
      ensures inter.stdout == old(inter.stdout) + Run(Store.Initial(), list).printed
    {
      ghost var whole := Run(Store.Initial(), list);
      var fs := new FrameStack();
      var i := 0;
      while i < |list|
        invariant 0 <= i <= |list|
        invariant fs.Valid() && fresh(fs.Repr)
        invariant whole.status == Run(fs.Abs(), list[i..]).status
        invariant old(inter.stdout) + whole.printed == inter.stdout + Run(fs.Abs(), list[i..]).printed
      {
        r := ExecuteAt(list, i, fs, inter);
        if r.Fail? {
          return;
        }
        i := i + 1;
      }
      r := Pass;
    }
  }

  /**
   * One iteration of `InstructionList::execute`: the run from `i` is what
   * instruction `i` printed followed by the run from `i + 1`, or the
   * instruction's exception.
   */
  method ExecuteAt(list: seq<Instruction>, i: nat, fs: FrameStack, inter: Interpreter) returns (r: Outcome)
    requires i < |list| && fs.Valid() && inter !in fs.Repr
    modifies fs.Repr, inter
    ensures fs.Valid() && fresh(fs.Repr - old(fs.Repr))
    ensures var t := Run(old(fs.Abs()), list[i..]);
            if r.Fail? then t.status == r && t.printed == [] && inter.stdout == old(inter.stdout)
            else
              var rest := Run(fs.Abs(), list[i + 1..]);
              t.status == rest.status && old(inter.stdout) + t.printed == inter.stdout + rest.printed
  {
    ghost var st := fs.Abs();
    ghost var out := inter.stdout;
    ghost var step := Step(st, list[i]);
    r := ExecuteInstruction(list[i], fs, inter);
    if step.Ok? {
      RunAfterOk(st, list, i, step.value);
      AppendAssoc(out, step.value.printed, Run(fs.Abs(), list[i + 1..]).printed);
    } else {
      RunAfterErr(st, list, i, step.error);
    }
  }

  lemma AppendAssoc(a: seq<string>, b: seq<string>, c: seq<string>)
    ensures a + (b + c) == (a + b) + c
  {
  }

  /** The interpreter's output: `print` appends to standard output. */
  class Interpreter {
    var stdout: seq<string>

    constructor ()
      ensures stdout == []
    {
      stdout := [];
    }

    method Print(s: string)
      modifies this
      ensures stdout == old(stdout) + [s]
    {
      stdout := stdout + [s];
    }

    /**
     * `Interpreter::execute` after loading: build the list, check the jumps,
     * run it, and return 0. A failed check stops the program before any
     * output.
     */
    method Execute(instructions: seq<Instruction>) returns (r: Result<int>)
      modifies this
      ensures var list := SortByOrder(instructions);
              match JumpCheck(list, Labels(list))
              case Fail(e) => r == Err(e) && stdout == old(stdout)
              case Pass =>
                var t := Run(Store.Initial(), list);
                stdout == old(stdout) + t.printed &&
                r == (if t.status.Pass? then Ok(0) else Err(t.status.error))
    {
      var insList := new InstructionList(instructions);
      var checked := insList.CheckJumps();
      if checked.Fail? {
        return Err(checked.error);
      }
      var executed := insList.Execute(this);
      if executed.Fail? {
        return Err(executed.error);
      }
      r := Ok(0);
    }
  }
}

=== FILE: escapes.dfy ===
/**
 * Decoding of string literals (`Instruction::unescape_string`): every
 * backslash followed by one to three decimal digits is replaced by the
 * character whose code is that number modulo 256; everything else is kept.
 *
 * Strings are sequences of characters. The pattern only ever matches ASCII
 * backslashes and digits, which never occur inside a multi-byte UTF-8
 * sequence, so the positions the pattern matches are the same whether the
 * text is read as characters or as bytes.
 */
module Escapes {

  predicate IsDigit(c: char) { '0' <= c <= '9' }

  /** How many leading characters of `s` the greedy `[0-9]{1,3}` takes. */
  function DigitRun(s: string): (n: nat)
    ensures n <= 3 && n <= |s|
    ensures forall i :: 0 <= i < n ==> IsDigit(s[i])
    ensures n < 3 && n < |s| ==> !IsDigit(s[n])
  {
    if |s| > 0 && IsDigit(s[0]) then
      if |s| > 1 && IsDigit(s[1]) then
        if |s| > 2 && IsDigit(s[2]) then 3 else 2
      else 1
    else 0
  }

  /** `intval` of a string of decimal digits (leading zeros allowed). */
  function DecimalValue(ds: string): nat
    requires forall i :: 0 <= i < |ds| ==> IsDigit(ds[i])
  {
    if ds == [] then 0
    else
      assert IsDigit(ds[|ds| - 1]);
      DecimalValue(ds[..|ds| - 1]) * 10 + (ds[|ds| - 1] as int - '0' as int)
  }

  /** PHP's `chr`: the byte with the given code, taken modulo 256. */
  function Chr(n: nat): (c: char)
    ensures c as int == n % 256
  {
    (n % 256) as char
  }

  /** The decoded string. */
  function Unescape(s: string): (r: string)
    ensures |r| <= |s|
    decreases |s|
  {
    if s == [] then []
    else if s[0] == '\\' && |s| > 1 && IsDigit(s[1]) then
      var n := DigitRun(s[1..]);
      [Chr(DecimalValue(s[1..1 + n]))] + Unescape(s[1 + n..])
    else
      [s[0]] + Unescape(s[1..])
  }

  /**
   * A backslash and a maximal run of one to three digits decode to the
   * character of the run's value modulo 256; the rest is decoded on its own.
   */
  lemma EscapeDecodes(ds: string, rest: string)
    requires 1 <= |ds| <= 3 && forall i :: 0 <= i < |ds| ==> IsDigit(ds[i])
    requires |ds| < 3 && rest != [] ==> !IsDigit(rest[0])
    ensures Unescape(['\\'] + ds + rest) == [Chr(DecimalValue(ds))] + Unescape(rest)
  {
    var s := ['\\'] + ds + rest;
    assert s[1..] == ds + rest;
    assert (ds + rest)[..|ds|] == ds;
    assert DigitRun(ds + rest) == |ds|;
    assert s[1..1 + |ds|] == ds;
    assert s[1 + |ds|..] == rest;
  }

  /** A string with no backslash is its own decoding. */
  lemma {:induction false} UnescapePlain(s: string)
    requires '\\' !in s
    ensures Unescape(s) == s
  {
    if s != [] {
      UnescapePlain(s[1..]);
      assert [s[0]] + s[1..] == s;
    }
  }

  /** Decoding shrinks the text by exactly the digits consumed by each escape. */
  lemma {:induction false} UnescapeShrinks(s: string)
    ensures |Unescape(s)| == |s| - EscapeDigits(s)
    decreases |s|
  {
    if s == [] {
    } else if s[0] == '\\' && |s| > 1 && IsDigit(s[1]) {
      UnescapeShrinks(s[1 + DigitRun(s[1..])..]);
    } else {
      UnescapeShrinks(s[1..]);
    }
  }

  /** The number of digit characters that the escapes of `s` consume. */
  function EscapeDigits(s: string): nat
    decreases |s|
  {
    if s == [] then 0
    else if s[0] == '\\' && |s| > 1 && IsDigit(s[1]) then
      DigitRun(s[1..]) + EscapeDigits(s[1 + DigitRun(s[1..])..])
    else EscapeDigits(s[1..])
  }

  function DigitChar(d: nat): char
    requires d < 10
  {
    ('0' as int + d) as char
  }

  /** The three-digit escape `\ddd` of a byte. */
  function EscapeByte(c: char): string
    requires c as int < 256
  {
    var n := c as int;
    ['\\', DigitChar(n / 100), DigitChar(n / 10 % 10), DigitChar(n % 10)]
  }

  /** The encoder the decoder inverts: every byte written as `\ddd`. */
  function Escape(s: string): string
    requires forall i :: 0 <= i < |s| ==> s[i] as int < 256
  {
    if s == [] then [] else EscapeByte(s[0]) + Escape(s[1..])
  }

  /** The value of three decimal digits. */
  lemma DecimalValueThree(a: char, b: char, c: char)
    requires IsDigit(a) && IsDigit(b) && IsDigit(c)
    ensures DecimalValue([a, b, c]) == ((a as int - '0' as int) * 10 + (b as int - '0' as int)) * 10 + (c as int - '0' as int)
  {
    assert [a][..0] == [];
    assert DecimalValue([a]) == a as int - '0' as int;
    assert [a, b][..1] == [a];
    assert DecimalValue([a, b]) == (a as int - '0' as int) * 10 + (b as int - '0' as int);
    assert [a, b, c][..2] == [a, b];
  }

  /** A byte is its three decimal digits. */
  lemma ByteDigits(n: nat)
    requires n < 256
    ensures (n / 100 * 10 + n / 10 % 10) * 10 + n % 10 == n
  {
    var q := n / 10;
    assert n == q * 10 + n % 10;
    assert q == q / 10 * 10 + q % 10;
    assert n / 100 == q / 10;
  }

  lemma EscapeByteDecodes(c: char, rest: string)
    requires c as int < 256
    ensures Unescape(EscapeByte(c) + rest) == [c] + Unescape(rest)
  {
    var e := EscapeByte(c) + rest;
    var n := c as int;
    assert e[1..][..3] == EscapeByte(c)[1..];
    assert DigitRun(e[1..]) == 3;
    var ds := e[1..4];
    assert ds == [DigitChar(n / 100), DigitChar(n / 10 % 10), DigitChar(n % 10)];
    DecimalValueThree(ds[0], ds[1], ds[2]);
    ByteDigits(n);
    assert DecimalValue(ds) == n;
    assert e[4..] == rest;
  }

  /** Decoding undoes encoding: `unescape_string` inverts `Escape` on bytes. */
  lemma {:induction false} UnescapeEscape(s: string)
    requires forall i :: 0 <= i < |s| ==> s[i] as int < 256
    ensures Unescape(Escape(s)) == s
  {
    if s != [] {
      EscapeByteDecodes(s[0], Escape(s[1..]));
      UnescapeEscape(s[1..]);
      assert [s[0]] + s[1..] == s;
    }
  }
}

=== FILE: frames.dfy ===
/**
 * The engine's mutable storage, as objects: `Variable`, `Frame` and
 * `FrameStack`. Each is proved against the value model of module Store:
 * `FrameStack.Abs()` reads the heap back as a `Store.Store`, and every
 * operation's effect on it is the matching Store function.
 */
module Frames {
  import opened Base
  import opened Strings
  import Store

  /** A typed slot. `value` is None until `set_value` first runs. */
  class Variable {
    const iden: string
    var vtype: string
    var value: Option<string>

    /** A fresh variable has the empty type. */
    constructor (identifier: string)
      ensures iden == identifier && vtype == "" && value == None
    {
      iden := identifier;
      vtype := "";
      value := None;
    }

    function AsSlot(): Store.Slot
      reads this
    {
      Store.Slot(iden, vtype, value)
    }

    function GetType(): string
      reads this
    {
      vtype
    }

    function GetValue(): Option<string>
      reads this
    {
      value
    }

    /** Sets type and value together; any type but the four scalar ones is an internal error. */
    method SetValue(t: string, v: string) returns (r: Outcome)
      modifies this
      ensures r.Pass? <==> Store.SettableType(t)
      ensures r.Pass? ==> GetType() == t && GetValue() == Some(v)
      ensures r.Fail? ==> r.error == InternalError && vtype == old(vtype) && value == old(value)
      ensures match Store.Assign(old(AsSlot()), t, v)
              case Ok(s) => r == Pass && AsSlot() == s
              case Err(e) => r == Fail(e) && AsSlot() == old(AsSlot())
    {
      if t != "int" && t != "bool" && t != "string" && t != "nil" {
        return Fail(InternalError);
      }
      vtype := t;
      value := Some(v);
      r := Pass;
    }
  }

  /**
   * The position of the first variable named `id`, as the source's linear
   * searches find it: the heap-level twin of `Store.SlotIndex`, to which
   * `FirstIndexSlots` relates it.
   */
  function FirstIndex(vs: seq<Variable>, id: string): (r: Option<nat>)
    ensures r.Some? ==> r.value < |vs| && vs[r.value].iden == id
    ensures r.Some? ==> forall j :: 0 <= j < r.value ==> vs[j].iden != id
    ensures r.None? <==> forall j :: 0 <= j < |vs| ==> vs[j].iden != id
  {
    if vs == [] then None
    else if vs[0].iden == id then Some(0)
    else match FirstIndex(vs[1..], id)
      case None => None
      case Some(k) => Some(k + 1)
  }

  /** `foreach ... if (iden === id) return TRUE`. */
  function ContainsIn(vs: seq<Variable>, id: string): (b: bool)
    ensures b <==> exists i :: 0 <= i < |vs| && vs[i].iden == id
  {
    if vs == [] then false
    else if vs[0].iden == id then true
    else
      assert forall i :: 0 < i < |vs| ==> vs[i] == vs[1..][i - 1];
      ContainsIn(vs[1..], id)
  }

  /** The slots the variables currently hold. */
  function SlotsOf(vs: seq<Variable>): (r: seq<Store.Slot>)
    reads vs
    ensures |r| == |vs|
    ensures forall i :: 0 <= i < |vs| ==> r[i] == vs[i].AsSlot()
  {
    seq(|vs|, i requires 0 <= i < |vs| reads vs => vs[i].AsSlot())
  }

  /** Searching the objects and searching their slots find the same position. */
  lemma FirstIndexSlots(vs: seq<Variable>, id: string)
    ensures FirstIndex(vs, id) == Store.SlotIndex(SlotsOf(vs), id)
  {
    var s := SlotsOf(vs);
    match FirstIndex(vs, id)
    case None =>
    case Some(m) =>
      Store.SlotIndexIs(s, id, m);
  }

  /** A frame: variables in insertion order. */
  class Frame {
    var vars: seq<Variable>

    constructor ()
      ensures vars == []
    {
      vars := [];
    }

    predicate Contains(id: string)
      reads this
      ensures Contains(id) <==> exists i :: 0 <= i < |vars| && vars[i].iden == id
    {
      ContainsIn(vars, id)
    }

    /** The first variable named `id`, or null exactly when there is none. */
    function Lookup(id: string): (r: Variable?)
      reads this
      ensures r == null <==> !Contains(id)
      ensures r != null ==> exists i :: 0 <= i < |vars| && vars[i] == r && r.iden == id &&
                                     forall j :: 0 <= j < i ==> vars[j].iden != id
    {
      match FirstIndex(vars, id)
      case None => null
      case Some(i) => vars[i]
    }

    /**
     * Appends `v` when its identifier is new; otherwise `v` replaces the
     * first variable with that identifier, in place.
     */
    method InsertVar(v: Variable)
      modifies this
      ensures !old(Contains(v.iden)) ==> vars == old(vars) + [v] && |vars| == |old(vars)| + 1
      ensures old(Contains(v.iden)) ==>
        var k := FirstIndex(old(vars), v.iden).value;
        |vars| == |old(vars)| && vars[k] == v &&
        forall j :: 0 <= j < |vars| && j != k ==> vars[j] == old(vars)[j]
      ensures Inserted(old(vars), vars, v)
    {
      if Lookup(v.iden) == null {
        vars := vars + [v];
        return;
      }
      var i := 0;
      while i < |vars|
        invariant 0 <= i <= |vars|
        invariant vars == old(vars)
        invariant forall j :: 0 <= j < i ==> vars[j].iden != v.iden
      {
        if vars[i].iden == v.iden {
          assert FirstIndex(vars, v.iden) == Some(i);
          vars := vars[i := v];
          return;
        }
        i := i + 1;
      }
      assert false;
    }
  }

  /**
   * `owner` gives every variable of the table its position, so no variable
   * object sits in two places.
   */
  ghost predicate Owned(t: seq<seq<Variable>>, owner: map<Variable, (nat, nat)>)
  {
    forall i, k :: 0 <= i < |t| && 0 <= k < |t[i]| ==> t[i][k] in owner && owner[t[i][k]] == (i, k)
  }

  /** The slots of a table of frames whose variables are all in `vars`. */
  function SlotTable(t: seq<seq<Variable>>, vars: set<Variable>): (r: seq<seq<Store.Slot>>)
    requires forall i, k :: 0 <= i < |t| && 0 <= k < |t[i]| ==> t[i][k] in vars
    reads vars
    ensures |r| == |t|
    ensures forall i :: 0 <= i < |t| ==> r[i] == SlotsOf(t[i])
  {
    if t == [] then []
    else
      assert forall i, k :: 0 <= i < |t| - 1 && 0 <= k < |t[1..][i]| ==> t[1..][i][k] == t[i + 1][k];
      [SlotsOf(t[0])] + SlotTable(t[1..], vars)
  }

  /** `now` is `was` after `Frame.InsertVar(v)`: `v` appended, or put in place of the first namesake. */
  predicate Inserted(was: seq<Variable>, now: seq<Variable>, v: Variable)
  {
    match FirstIndex(was, v.iden)
    case None => now == was + [v]
    case Some(k) => now == was[k := v]
  }

  /** Slot-level view of `Frame.InsertVar`: the slots change as `Store.Insert` says. */
  lemma SlotsOfInsert(was: seq<Variable>, now: seq<Variable>, v: Variable)
    requires Inserted(was, now, v)
    ensures SlotsOf(now) == Store.Insert(SlotsOf(was), v.AsSlot())
  {
    FirstIndexSlots(was, v.iden);
    var s := SlotsOf(was);
    match FirstIndex(was, v.iden)
    case None =>
      assert SlotsOf(now) == s + [v.AsSlot()];
    case Some(k) =>
      assert SlotsOf(now) == s[k := v.AsSlot()];
  }

  /** Variables whose fields did not change hold the slots they held. */
  twostate lemma SlotsUnchanged(vs: seq<Variable>)
    requires forall k :: 0 <= k < |vs| ==> unchanged(vs[k])
    ensures SlotsOf(vs) == old(SlotsOf(vs))
  {
  }

  /**
   * Variables that kept their fields, except the one at `at.1`, hold the slots they held there.
   * Its inputs form one pair: with two parameters, the verifier's check
   * for contradictory assumptions fails on a twostate lemma.
   */
  twostate lemma SlotsChangedAt(at: (seq<Variable>, nat))
    requires at.1 < |at.0|
    requires forall l :: 0 <= l < |at.0| && l != at.1 ==> unchanged(at.0[l])
    ensures SlotsOf(at.0) == old(SlotsOf(at.0))[at.1 := at.0[at.1].AsSlot()]
  {
  }

  /** A variable at one position of an owned table is at no other position. */
  lemma OwnedApart(t: seq<seq<Variable>>, owner: map<Variable, (nat, nat)>, at: (nat, nat))
    requires Owned(t, owner) && at.0 < |t| && at.1 < |t[at.0]|
    ensures forall i, l :: 0 <= i < |t| && 0 <= l < |t[i]| && (i, l) != at ==> t[i][l] != t[at.0][at.1]
  {
  }

  /** Where `Frame.InsertVar` puts a variable named `id`. */
  function InsertPos(vs: seq<Variable>, id: string): nat
  {
    match FirstIndex(vs, id)
    case None => |vs|
    case Some(k) => k
  }

  /**
   * One global frame, an optional temporary frame and a stack of local
   * frames. `arena` lists every frame the stack ever created (GF first),
   * `table` their variable lists, and `tfId`/`lfIds` the positions in
   * `arena` that `tf`/`lfstack` refer to.
   */
  class FrameStack {
    const gf: Frame
    var tf: Frame?
    var lfstack: seq<Frame?>

    ghost var arena: seq<Frame>
    ghost var table: seq<seq<Variable>>
    ghost var tfId: Option<nat>
    ghost var lfIds: seq<Option<nat>>
    ghost var frameAt: map<Frame, nat>
    ghost var owner: map<Variable, (nat, nat)>
    ghost var Repr: set<object>

    /** `fr` is the frame that `id` numbers (null for None). */
    ghost predicate Refers(id: Option<nat>, fr: Frame?)
      reads this
    {
      match id
      case None => fr == null
      case Some(n) => n < |arena| && fr == arena[n]
    }

    /**
     * `arena` numbers distinct frames, GF first; `tfId` and `lfIds` number
     * what `tf` and `lfstack` hold.
     */
    ghost predicate Numbered()
      reads this
    {
      && |arena| > 0 && arena[0] == gf
      && |table| == |arena|
      && (forall i :: 0 <= i < |arena| ==> arena[i] in frameAt && frameAt[arena[i]] == i)
      && frameAt.Keys <= Repr
      && Refers(tfId, tf)
      && |lfIds| == |lfstack|
      && (forall k :: 0 <= k < |lfstack| ==> Refers(lfIds[k], lfstack[k]))
    }

    /** `table` is what the frames hold, and every variable in it has one owner. */
    ghost predicate Tabled()
      requires Numbered()
      reads this, Repr
    {
      && (forall i :: 0 <= i < |arena| ==> table[i] == arena[i].vars)
      && Owned(table, owner)
      && owner.Keys <= Repr
    }

    // A match on `this in Repr` rather than the conjunction `this in Repr && ...`:
    // the verifier proves the methods that maintain it at a lower cost this way.
    ghost predicate Valid()
      reads this, Repr
    {
      match this in Repr
      case true => Numbered() && Tabled()
      case false => false
    }

    /** The stack read back as a value. */
    ghost function Abs(): (st: Store.Store)
      requires Valid()
      reads this, Repr
      ensures st.Valid()
      ensures |st.frames| == |arena| && st.tf == tfId && st.lf == lfIds
      ensures forall i :: 0 <= i < |arena| ==> st.frames[i] == SlotsOf(table[i])
    {
      Store.Store(SlotTable(table, owner.Keys), tfId, lfIds)
    }

    /** `r` is the frame that the value-model result `s` names. */
    ghost predicate Designates(r: Result<Frame>, s: Result<nat>)
      reads this
    {
      match s
      case Ok(f) => f < |arena| && r == Ok(arena[f])
      case Err(e) => r == Err(e)
    }

    /** `r` is the variable that the value-model result `s` names. */
    ghost predicate Locates(r: Result<Variable>, s: Result<(nat, nat)>)
      reads this
    {
      match s
      case Ok(at) => at.0 < |table| && at.1 < |table[at.0]| && r == Ok(table[at.0][at.1])
      case Err(e) => r == Err(e)
    }

    constructor ()
      ensures Valid() && fresh(Repr)
      ensures Abs() == Store.Initial()
      ensures gf.vars == [] && tf == null && lfstack == []
    {
      var g := new Frame();
      gf := g;
      tf := null;
      lfstack := [];
      arena := [g];
      table := [[]];
      tfId := None;
      lfIds := [];
      frameAt := map[g := 0];
      owner := map[];
      new;
      Repr := {this, g};
    }

    /** The global frame: frame 0 of the value model. */
    function GetGf(): (r: Frame)
      requires Valid()
      reads this, Repr
      ensures Designates(Ok(r), Ok(0))
      ensures Abs().frames[0] == SlotsOf(r.vars)
    {
      gf
    }

    /** The temporary frame; a frame-access error while there is none. */
    function GetTf(): (r: Result<Frame>)
      requires Valid()
      reads this, Repr
      ensures r.Err? <==> tf == null
      ensures r.Err? ==> r.error == FrameAccess
      ensures r.Ok? ==> r.value == tf
      ensures Designates(r, Store.GetTf(Abs()))
    {
      if tf == null then Err(FrameAccess) else Ok(tf)
    }

    /**
     * The top local frame; a frame-access error on an empty stack. A null
     * entry (pushed while there was no TF) makes the non-null return type
     * fail.
     */
    function GetLf(): (r: Result<Frame>)
      requires Valid()
      reads this, Repr
      ensures |lfstack| == 0 ==> r == Err(FrameAccess)
      ensures |lfstack| > 0 && lfstack[|lfstack| - 1] == null ==> r == Err(EngineTypeError)
      ensures |lfstack| > 0 && lfstack[|lfstack| - 1] != null ==> r == Ok(lfstack[|lfstack| - 1])
      ensures Designates(r, Store.GetLf(Abs()))
    {
      if |lfstack| == 0 then Err(FrameAccess)
      else
        var top := lfstack[|lfstack| - 1];
        if top == null then Err(EngineTypeError) else Ok(top)
    }

    /** A new empty frame becomes TF; GF and the local stack are untouched. */
    method CreateFrame()
      requires Valid()
      modifies this
      ensures Valid() && fresh(Repr - old(Repr))
      ensures fresh(tf) && tf.vars == []
      ensures lfstack == old(lfstack) && gf.vars == old(gf.vars)
      ensures Abs() == Store.CreateFrame(old(Abs()))
    {
      var f := new Frame();
      tf := f;
      tfId := Some(|arena|);
      frameAt := frameAt[f := |arena|];
      arena := arena + [f];
      table := table + [[]];
      Repr := Repr + {f};
      Created(f);
    }

    /** After `CreateFrame`'s updates, with `f` the new frame, the stack is valid and has one more, empty, frame as TF. */
    twostate lemma Created(new f: Frame)
      requires old(Valid()) && !old(allocated(f))
      requires f.vars == [] && tf == f && tfId == Some(|old(arena)|)
      requires arena == old(arena) + [f] && table == old(table) + [[]]
      requires frameAt == old(frameAt)[f := |old(arena)|] && owner == old(owner)
      requires lfstack == old(lfstack) && lfIds == old(lfIds) && Repr == old(Repr) + {f}
      requires unchanged(old(Repr) - {this})
      ensures Valid()
      ensures Abs() == Store.CreateFrame(old(Abs()))
    {
      CreatedValid(f);
      CreatedAbs();
    }

    /** After `CreateFrame`'s updates, with `f` the new frame, the stack is valid again. */
    twostate lemma CreatedValid(new f: Frame)
      requires old(Valid()) && !old(allocated(f))
      requires f.vars == [] && tf == f && tfId == Some(|old(arena)|)
      requires arena == old(arena) + [f] && table == old(table) + [[]]
      requires frameAt == old(frameAt)[f := |old(arena)|] && owner == old(owner)
      requires lfstack == old(lfstack) && lfIds == old(lfIds) && Repr == old(Repr) + {f}
      requires unchanged(old(Repr) - {this})
      ensures Valid()
    {
      assert forall i :: 0 <= i < |old(arena)| ==> arena[i] == old(arena[i]) && arena[i] != f;
      assert forall k :: 0 <= k < |lfstack| ==> old(Refers(lfIds[k], lfstack[k])) ==> Refers(lfIds[k], lfstack[k]);
    }

    /** After `CreateFrame`'s updates the model has one more, empty, frame, and it is TF. */
    twostate lemma CreatedAbs()
      requires old(Valid()) && Valid()
      requires tfId == Some(|old(arena)|) && lfIds == old(lfIds)
      requires table == old(table) + [[]] && owner == old(owner)
      requires unchanged(old(Repr) - {this})
      ensures Abs() == Store.CreateFrame(old(Abs()))
    {
      forall i | 0 <= i < |old(table)|
        ensures SlotsOf(table[i]) == old(SlotsOf(table[i]))
      {
        assert forall k :: 0 <= k < |table[i]| ==> table[i][k] in old(Repr);
      }
      assert forall i :: 0 <= i < |old(table)| ==> Abs().frames[i] == old(Abs()).frames[i];
    }

    /** TF, even when null, is pushed; TF itself is neither checked nor cleared. */
    method PushFrame()
      requires Valid()
      modifies this
      ensures Valid() && Repr == old(Repr)
      ensures lfstack == old(lfstack) + [old(tf)] && tf == old(tf)
      ensures Abs() == Store.PushFrame(old(Abs()))
    {
      lfstack := lfstack + [tf];
      lfIds := lfIds + [tfId];
    }

    /** The top local frame is discarded; GF and TF are unchanged. */
    method PopFrame() returns (r: Outcome)
      requires Valid()
      modifies this
      ensures Valid() && Repr == old(Repr)
      ensures tf == old(tf)
      ensures r.Fail? <==> |old(lfstack)| == 0
      ensures r.Fail? ==> r.error == FrameAccess && lfstack == old(lfstack)
      ensures r.Pass? ==> lfstack == old(lfstack)[..|old(lfstack)| - 1]
      ensures match Store.PopFrame(old(Abs()))
              case Ok(st) => r == Pass && Abs() == st
              case Err(e) => r == Fail(e) && Abs() == old(Abs())
    {
      if |lfstack| == 0 {
        return Fail(FrameAccess);
      }
      lfstack := lfstack[..|lfstack| - 1];
      lfIds := lfIds[..|lfIds| - 1];
      r := Pass;
    }

    /** `Frame::lookup` with the name part of a reference. */
    function FindIn(fr: Frame, name: Option<string>): Result<Variable>
      reads fr
    {
      if name.None? then Err(EngineTypeError)
      else
        var v := fr.Lookup(name.value);
        if v == null then Err(VariableAccess) else Ok(v)
    }

    lemma FindInLocates(f: nat, name: Option<string>)
      requires Valid() && f < |arena|
      ensures Locates(FindIn(arena[f], name), Store.Find(Abs(), f, name))
    {
      if name.Some? {
        FirstIndexSlots(table[f], name.value);
      }
    }

    /** `lookup_internal`: may report a missing frame as a frame-access error. */
    function LookupInternal(iden: string): (r: Result<Variable>)
      requires Valid()
      reads this, Repr
      ensures Locates(r, Store.LookupInternal(Abs(), iden))
    {
      var frame := FramePart(iden);
      var name := NamePart(iden);
      if frame == "GF" then
        FindInLocates(0, name);
        FindIn(gf, name)
      else if frame == "LF" then
        match GetLf()
        case Err(e) => Err(e)
        case Ok(fr) =>
          FindInLocates(Store.GetLf(Abs()).value, name);
          FindIn(fr, name)
      else if frame == "TF" then
        match GetTf()
        case Err(e) => Err(e)
        case Ok(fr) =>
          FindInLocates(Store.GetTf(Abs()).value, name);
          FindIn(fr, name)
      else Err(VariableAccess)
    }

    /**
     * `lookup`: the variable a reference such as `LF@x` names. A missing
     * frame is reported as a variable-access error, never a frame-access one.
     */
    function Lookup(iden: string): (r: Result<Variable>)
      requires Valid()
      reads this, Repr
      ensures r.Err? ==> r.error != FrameAccess
      ensures r.Ok? ==> r.value in Repr
      ensures Locates(r, Store.Lookup(Abs(), iden))
    {
      match LookupInternal(iden)
      case Err(FrameAccess) => Err(VariableAccess)
      case other => other
    }

    /** Inserts fresh `v` into frame number `f`, which is `fr`. */
    method InsertIntoFrame(fr: Frame, ghost f: nat, v: Variable)
      requires Valid() && f < |arena| && fr == arena[f] && v !in Repr
      modifies Repr
      ensures Valid() && Repr == old(Repr) + {v}
      ensures tf == old(tf) && lfstack == old(lfstack)
      ensures Abs() == Store.InsertInto(old(Abs()), f, v.AsSlot())
    {
      fr.InsertVar(v);
      table := table[f := fr.vars];
      owner := owner[v := (f, InsertPos(old(table[f]), v.iden))];
      Repr := Repr + {v};
      InsertedValid((f, v));
      InsertedAbs((f, v));
    }

    /**
     * After `Frame.InsertVar(v)` on frame `f` and the ghost bookkeeping, the stack is valid again.
     * Its inputs form one pair: with two parameters, the verifier's check
     * for contradictory assumptions fails on a twostate lemma.
     */
    twostate lemma InsertedValid(entry: (nat, Variable))
      requires old(Valid()) && entry.0 < |old(arena)| && entry.1 !in old(Repr)
      requires arena == old(arena) && tf == old(tf) && lfstack == old(lfstack)
      requires tfId == old(tfId) && lfIds == old(lfIds) && frameAt == old(frameAt)
      requires Inserted(old(table[entry.0]), arena[entry.0].vars, entry.1)
      requires table == old(table)[entry.0 := arena[entry.0].vars]
      requires owner == old(owner)[entry.1 := (entry.0, InsertPos(old(table[entry.0]), entry.1.iden))]
      requires Repr == old(Repr) + {entry.1}
      requires unchanged(old(Repr) - {this, arena[entry.0]})
      ensures Valid()
    {
      var (f, v) := entry;
      ghost var t := old(table);
      ghost var pos := InsertPos(t[f], v.iden);
      forall i | 0 <= i < |arena|
        ensures table[i] == arena[i].vars
      {
        if i != f {
          assert arena[i] != arena[f];
        }
      }
      forall i, k | 0 <= i < |table| && 0 <= k < |table[i]|
        ensures table[i][k] in Repr && table[i][k] in owner && owner[table[i][k]] == (i, k)
      {
        if i != f || k != pos {
          assert table[i][k] == t[i][k];
          assert t[i][k] in old(Repr);
        }
      }
    }

    /**
     * After `Frame.InsertVar(v)` on frame `f`, the model holds the inserted slot there.
     * Its inputs form one pair: with two parameters, the verifier's check
     * for contradictory assumptions fails on a twostate lemma.
     */
    twostate lemma InsertedAbs(entry: (nat, Variable))
      requires old(Valid()) && Valid() && entry.0 < |old(table)| && |table| == |old(table)|
      requires tfId == old(tfId) && lfIds == old(lfIds)
      requires Inserted(old(table[entry.0]), table[entry.0], entry.1)
      requires table == old(table)[entry.0 := table[entry.0]]
      requires unchanged(old(owner).Keys)
      ensures Abs() == Store.InsertInto(old(Abs()), entry.0, entry.1.AsSlot())
    {
      var (f, v) := entry;
      ghost var t := old(table);
      forall i | 0 <= i < |t|
        ensures SlotsOf(t[i]) == old(SlotsOf(t[i]))
      {
        assert forall k :: 0 <= k < |t[i]| ==> t[i][k] in old(owner);
        SlotsUnchanged(t[i]);
      }
      SlotsOfInsert(t[f], table[f], v);
      ghost var r := Store.InsertInto(old(Abs()), f, v.AsSlot());
      assert forall i :: 0 <= i < |table| ==> Abs().frames[i] == r.frames[i];
    }

    /**
     * `insert_var`: an untyped variable named by the part after '@' goes
     * into the frame the prefix names; an unknown prefix inserts nothing.
     */
    method InsertVar(varToInsert: Variable) returns (r: Outcome)
      requires Valid()
      modifies Repr
      ensures Valid() && fresh(Repr - old(Repr))
      ensures tf == old(tf) && lfstack == old(lfstack)
      ensures match Store.InsertVar(old(Abs()), varToInsert.iden)
              case Ok(st) => r == Pass && Abs() == st
              case Err(e) => r == Fail(e) && Abs() == old(Abs())
    {
      var frame := FramePart(varToInsert.iden);
      var identifier := NamePart(varToInsert.iden);
      if identifier.None? {
        return Fail(EngineTypeError);
      }
      var v := new Variable(identifier.value);
      if frame == "GF" {
        InsertIntoFrame(gf, 0, v);
      } else if frame == "LF" {
        var fr := GetLf();
        if fr.Err? {
          return Fail(fr.error);
        }
        InsertIntoFrame(fr.value, Store.GetLf(Abs()).value, v);
      } else if frame == "TF" {
        var fr := GetTf();
        if fr.Err? {
          return Fail(fr.error);
        }
        InsertIntoFrame(fr.value, Store.GetTf(Abs()).value, v);
      }
      r := Pass;
    }

    /**
     * After `set_value` on the variable at `at`, the stack is still valid.
     * Its inputs form one pair: with two parameters, the verifier's check
     * for contradictory assumptions fails on a twostate lemma.
     */
    twostate lemma AssignedValid(at: (nat, nat))
      requires old(Valid()) && at.0 < |old(table)| && at.1 < |old(table)[at.0]|
      requires unchanged(this)
      requires unchanged(old(Repr) - {old(table)[at.0][at.1]})
      ensures Valid()
    {
      assert forall i :: 0 <= i < |arena| ==> arena[i].vars == old(arena[i].vars);
    }

    /**
     * After `set_value` on the variable at `at`, the model holds its new slot there.
     * Its inputs form one pair: with two parameters, the verifier's check
     * for contradictory assumptions fails on a twostate lemma.
     */
    twostate lemma AssignedAbs(at: (nat, nat))
      requires old(Valid()) && Valid() && at.0 < |table| && at.1 < |table[at.0]|
      requires unchanged(this)
      requires unchanged(old(Repr) - {table[at.0][at.1]})
      ensures Abs() == Store.SetSlot(old(Abs()), at.0, at.1, table[at.0][at.1].AsSlot())
    {
      AssignedSlots(at);
      ghost var r := Store.SetSlot(old(Abs()), at.0, at.1, table[at.0][at.1].AsSlot());
      assert forall i :: 0 <= i < |table| ==> Abs().frames[i] == r.frames[i];
    }

    /**
     * After `set_value` on the variable at `at`, only that frame's slots changed, and only at that position.
     * Its inputs form one pair: with two parameters, the verifier's check
     * for contradictory assumptions fails on a twostate lemma.
     */
    twostate lemma AssignedSlots(at: (nat, nat))
      requires old(Valid()) && at.0 < |table| && at.1 < |table[at.0]|
      requires unchanged(this)
      requires unchanged(old(Repr) - {table[at.0][at.1]})
      ensures forall i :: 0 <= i < |table| && i != at.0 ==> SlotsOf(table[i]) == old(SlotsOf(table[i]))
      ensures SlotsOf(table[at.0]) == old(SlotsOf(table[at.0]))[at.1 := table[at.0][at.1].AsSlot()]
    {
      var (f, k) := at;
      OwnedApart(table, owner, at);
      forall i | 0 <= i < |table| && i != f
        ensures SlotsOf(table[i]) == old(SlotsOf(table[i]))
      {
        assert forall l :: 0 <= l < |table[i]| ==> table[i][l] in owner;
        SlotsUnchanged(table[i]);
      }
      assert forall l :: 0 <= l < |table[f]| ==> table[f][l] in owner;
      SlotsChangedAt((table[f], k));
    }
  }
}

=== FILE: instructions.dfy ===
/**
 * Instructions as values, and the meaning of running them.
 *
 * An instruction is the record the engine reads out of its XML element:
 * the opcode (already lower-cased), the integer `order`, for each present
 * argument element `argN` its `type` attribute and trimmed text, and the
 * trimmed text of the whole element (what `get_content` returns; for a
 * `label` that is the label's name).
 *
 * `Step` is the effect of `Instruction::execute` on the value model of the
 * frame stack, `Run` the effect of executing a list in order, `Labels` and
 * `JumpCheck` the static check of jump targets, and `SortByOrder` the stable
 * sort the instruction list applies when it is built.
 */
module Instructions {
  import opened Base
  import opened Escapes
  import Store

  /** One `argN` element: its `type` attribute, if any, and its trimmed text. */
  datatype Arg = Arg(typeAttr: Option<string>, text: string)

  datatype Instruction = Instruction(opcode: string, order: int, args: map<nat, Arg>, content: string)

  /** `get_first_arg_value` / `get_second_arg_value`: a missing element is an internal error. */
  function ArgValue(ins: Instruction, n: nat): (r: Result<string>)
    ensures r.Ok? <==> n in ins.args
    ensures r.Ok? ==> r.value == ins.args[n].text
    ensures r.Err? ==> r.error == InternalError
  {
    if n in ins.args then Ok(ins.args[n].text) else Err(InternalError)
  }

  /** `get_type_attr`: a missing element or a missing attribute is an internal error. */
  function TypeAttr(ins: Instruction, n: nat): (r: Result<string>)
    ensures r.Ok? <==> n in ins.args && ins.args[n].typeAttr.Some?
    ensures r.Ok? ==> r.value == ins.args[n].typeAttr.value
    ensures r.Err? ==> r.error == InternalError
  {
    if n !in ins.args then Err(InternalError)
    else if ins.args[n].typeAttr.None? then Err(InternalError)
    else Ok(ins.args[n].typeAttr.value)
  }

  /** `is_label`; a label is neither checked as a jump nor executed. */
  predicate IsLabel(ins: Instruction)
    ensures IsLabel(ins) ==> !IsJump(ins) && !Handled(ins.opcode)
  {
    ins.opcode == "label"
  }

  /** The opcodes whose first argument `check_jumps` validates. */
  predicate IsJump(ins: Instruction)
  {
    ins.opcode == "jump" || ins.opcode == "jumpifeq" || ins.opcode == "jumpifneq"
  }

  /** The opcodes `execute` has a branch for. */
  predicate Handled(opcode: string)
  {
    opcode == "move" || opcode == "defvar" || opcode == "createframe" || opcode == "pushframe" ||
    opcode == "popframe" || opcode == "write" || opcode == "dprint" || opcode == "break"
  }

  // ---------------------------------------------------------------- ordering

  /** `comp_by_order`: the sign of the difference of the orders. */
  function CompByOrder(a: Instruction, b: Instruction): (c: int)
    ensures -1 <= c <= 1
    ensures c == -1 <==> a.order < b.order
    ensures c == 1 <==> a.order > b.order
  {
    if a.order < b.order then -1
    else if a.order > b.order then 1
    else 0
  }

  /** The comparator is a total preorder: it is antisymmetric and its verdicts chain. */
  lemma CompByOrderPreorder(a: Instruction, b: Instruction, c: Instruction)
    ensures CompByOrder(a, b) == -CompByOrder(b, a)
    ensures CompByOrder(a, b) == 0 <==> a.order == b.order
    ensures CompByOrder(a, b) <= 0 && CompByOrder(b, c) <= 0 ==> CompByOrder(a, c) <= 0
    ensures CompByOrder(a, b) < 0 && CompByOrder(b, c) <= 0 ==> CompByOrder(a, c) < 0
  {
  }

  /** Orders never decrease along `s`. */
  predicate SortedByOrder(s: seq<Instruction>)
  {
    forall i, j :: 0 <= i < j < |s| ==> s[i].order <= s[j].order
  }

  /** The instructions of `s` with order `k`, in the order they appear. */
  function WithOrder(s: seq<Instruction>, k: int): seq<Instruction>
  {
    if s == [] then []
    else (if s[0].order == k then [s[0]] else []) + WithOrder(s[1..], k)
  }

  /** `x` placed before the first instruction that compares greater, so after its equals. */
  function InsertByOrder(s: seq<Instruction>, x: Instruction): seq<Instruction>
  {
    if s == [] then [x]
    else if CompByOrder(x, s[0]) < 0 then [x] + s
    else [s[0]] + InsertByOrder(s[1..], x)
  }

  /** `usort($list, compare_instructions)`; PHP's sort is stable. */
  function SortByOrder(s: seq<Instruction>): (r: seq<Instruction>)
    ensures multiset(r) == multiset(s)
  {
    if s == [] then []
    else
      var p := SortByOrder(s[..|s| - 1]);
      InsertByOrderPermutes(p, s[|s| - 1]);
      assert s == s[..|s| - 1] + [s[|s| - 1]];
      InsertByOrder(p, s[|s| - 1])
  }

  lemma {:induction false} WithOrderSnoc(s: seq<Instruction>, x: Instruction, k: int)
    ensures WithOrder(s + [x], k) == WithOrder(s, k) + (if x.order == k then [x] else [])
  {
    if s != [] {
      WithOrderSnoc(s[1..], x, k);
      assert (s + [x])[1..] == s[1..] + [x];
    }
  }

  lemma {:induction false} WithOrderNone(s: seq<Instruction>, k: int)
    requires forall i :: 0 <= i < |s| ==> s[i].order != k
    ensures WithOrder(s, k) == []
  {
    if s != [] {
      WithOrderNone(s[1..], k);
    }
  }

  /** Inserting adds exactly `x`. */
  lemma {:induction false} InsertByOrderPermutes(s: seq<Instruction>, x: Instruction)
    ensures multiset(InsertByOrder(s, x)) == multiset(s) + multiset{x}
  {
    if s != [] && CompByOrder(x, s[0]) >= 0 {
      InsertByOrderPermutes(s[1..], x);
      assert s == [s[0]] + s[1..];
    }
  }

  /** Inserting keeps every order at least `m` when `x`'s and all of `s`'s are. */
  lemma {:induction false} InsertByOrderAbove(s: seq<Instruction>, x: Instruction, m: int)
    requires m <= x.order && forall i :: 0 <= i < |s| ==> m <= s[i].order
    ensures forall j :: 0 <= j < |InsertByOrder(s, x)| ==> m <= InsertByOrder(s, x)[j].order
  {
    if s != [] && CompByOrder(x, s[0]) >= 0 {
      InsertByOrderAbove(s[1..], x, m);
    }
  }

  /** Inserting into a sorted sequence keeps it sorted. */
  lemma {:induction false} InsertByOrderSorted(s: seq<Instruction>, x: Instruction)
    requires SortedByOrder(s)
    ensures SortedByOrder(InsertByOrder(s, x))
  {
    if s != [] && CompByOrder(x, s[0]) >= 0 {
      var t := s[1..];
      InsertByOrderSorted(t, x);
      InsertByOrderAbove(t, x, s[0].order);
      assert InsertByOrder(s, x) == [s[0]] + InsertByOrder(t, x);
    }
  }

  /** The tail of a sorted sequence is sorted, and its head has the lowest order. */
  lemma SortedTail(s: seq<Instruction>)
    requires SortedByOrder(s) && s != []
    ensures SortedByOrder(s[1..])
    ensures forall i :: 0 <= i < |s| ==> s[0].order <= s[i].order
  {
    assert forall i :: 0 <= i < |s| - 1 ==> s[1..][i] == s[i + 1];
  }

  lemma WithOrderCons(x: Instruction, s: seq<Instruction>, k: int)
    ensures WithOrder([x] + s, k) == (if x.order == k then [x] else []) + WithOrder(s, k)
  {
    assert ([x] + s)[0] == x && ([x] + s)[1..] == s;
  }

  /** In a sorted sequence, `x` lands after every instruction of its own order. */
  lemma {:induction false} InsertByOrderStable(s: seq<Instruction>, x: Instruction, k: int)
    requires SortedByOrder(s)
    ensures WithOrder(InsertByOrder(s, x), k) == WithOrder(s, k) + (if x.order == k then [x] else [])
  {
    var own := if x.order == k then [x] else [];
    if s == [] {
      WithOrderCons(x, [], k);
      assert [x] + [] == [x];
    } else if CompByOrder(x, s[0]) < 0 {
      WithOrderCons(x, s, k);
      if x.order == k {
        SortedTail(s);
        WithOrderNone(s, k);
      }
    } else {
      var t := InsertByOrder(s[1..], x);
      var head := if s[0].order == k then [s[0]] else [];
      SortedTail(s);
      InsertByOrderStable(s[1..], x, k);
      WithOrderCons(s[0], t, k);
      WithOrderCons(s[0], s[1..], k);
      assert [s[0]] + s[1..] == s;
      assert head + (WithOrder(s[1..], k) + own) == (head + WithOrder(s[1..], k)) + own;
    }
  }

  /** The list is sorted by nondecreasing order. */
  lemma {:induction false} SortByOrderSorted(s: seq<Instruction>)
    ensures SortedByOrder(SortByOrder(s))
    ensures multiset(SortByOrder(s)) == multiset(s)
    ensures forall k :: WithOrder(SortByOrder(s), k) == WithOrder(s, k)
  {
    if s != [] {
      var p := s[..|s| - 1];
      var x := s[|s| - 1];
      assert s == p + [x];
      var r := SortByOrder(p);
      assert SortByOrder(s) == InsertByOrder(r, x);
      SortByOrderSorted(p);
      InsertByOrderSorted(r, x);
      InsertedKeepsOrder(p, x);
    }
  }

  /** Inserting the next instruction into the sorted prefix keeps each order's instructions in input order. */
  lemma InsertedKeepsOrder(p: seq<Instruction>, x: Instruction)
    requires SortedByOrder(SortByOrder(p))
    requires forall k :: WithOrder(SortByOrder(p), k) == WithOrder(p, k)
    ensures forall k :: WithOrder(InsertByOrder(SortByOrder(p), x), k) == WithOrder(p + [x], k)
  {
    forall k
      ensures WithOrder(InsertByOrder(SortByOrder(p), x), k) == WithOrder(p + [x], k)
    {
      InsertByOrderStable(SortByOrder(p), x, k);
      WithOrderSnoc(p, x, k);
    }
  }

  // ----------------------------------------------------------- jump checking

  /** `get_labels`: the contents of the label instructions, in list order. */
  function Labels(list: seq<Instruction>): (r: seq<string>)
    ensures forall s :: s in r <==> exists i :: 0 <= i < |list| && IsLabel(list[i]) && list[i].content == s
  {
    if list == [] then []
    else
      var last := list[|list| - 1];
      var rest := Labels(list[..|list| - 1]);
      assert forall i :: 0 <= i < |list| - 1 ==> list[i] == list[..|list| - 1][i];
      if IsLabel(last) then rest + [last.content] else rest
  }

  /** What `check_jumps` throws for one instruction, if anything. */
  function JumpFault(ins: Instruction, labels: seq<string>): (r: Option<Error>)
    ensures r.Some? ==> IsJump(ins)
    ensures r == Some(UnknownLabel) <==> IsJump(ins) && 1 in ins.args && ins.args[1].text !in labels
    ensures r == Some(InternalError) <==> IsJump(ins) && 1 !in ins.args
  {
    if !IsJump(ins) then None
    else match ArgValue(ins, 1)
      case Err(e) => Some(e)
      case Ok(target) => if target in labels then None else Some(UnknownLabel)
  }

  /** `check_jumps` against a fixed label list: the first fault, in list order. */
  function JumpCheck(list: seq<Instruction>, labels: seq<string>): (r: Outcome)
    ensures r.Fail? ==> r.error == UnknownLabel || r.error == InternalError
    ensures (forall i :: 0 <= i < |list| ==> !IsJump(list[i])) ==> r == Pass
  {
    if list == [] then Pass
    else match JumpFault(list[0], labels)
      case Some(e) => Fail(e)
      case None => JumpCheck(list[1..], labels)
  }

  /** The check passes exactly when no instruction has a fault, and otherwise reports the first. */
  lemma {:induction false} JumpCheckFirst(list: seq<Instruction>, labels: seq<string>)
    ensures JumpCheck(list, labels) == Pass <==>
            forall i :: 0 <= i < |list| ==> JumpFault(list[i], labels).None?
    ensures JumpCheck(list, labels).Fail? ==>
            exists i :: 0 <= i < |list| && JumpFault(list[i], labels) == Some(JumpCheck(list, labels).error) &&
                        forall j :: 0 <= j < i ==> JumpFault(list[j], labels).None?
  {
    if list != [] {
      JumpCheckFirst(list[1..], labels);
      assert forall i :: 0 < i < |list| ==> list[i] == list[1..][i - 1];
      if JumpFault(list[0], labels).None? && JumpCheck(list, labels).Fail? {
        var i :| 0 <= i < |list[1..]| && JumpFault(list[1..][i], labels) == Some(JumpCheck(list, labels).error) &&
                 forall j :: 0 <= j < i ==> JumpFault(list[1..][j], labels).None?;
        assert JumpFault(list[i + 1], labels) == Some(JumpCheck(list, labels).error);
      }
    }
  }

  /**
   * When every jump has a first argument, the check fails with an unknown
   * label exactly when some jump names a label that is not in the list.
   */
  lemma UnknownLabelExactly(list: seq<Instruction>)
    requires forall i :: 0 <= i < |list| && IsJump(list[i]) ==> 1 in list[i].args
    ensures JumpCheck(list, Labels(list)) == Fail(UnknownLabel) <==>
            exists i :: 0 <= i < |list| && IsJump(list[i]) && list[i].args[1].text !in Labels(list)
    ensures JumpCheck(list, Labels(list)) == Pass <==>
            forall i :: 0 <= i < |list| && IsJump(list[i]) ==> list[i].args[1].text in Labels(list)
  {
    var labels := Labels(list);
    JumpCheckFirst(list, labels);
    assert forall i :: 0 <= i < |list| ==> JumpFault(list[i], labels) != Some(InternalError);
    if exists i :: 0 <= i < |list| && IsJump(list[i]) && list[i].args[1].text !in labels {
      var i :| 0 <= i < |list| && IsJump(list[i]) && list[i].args[1].text !in labels;
      assert JumpFault(list[i], labels) == Some(UnknownLabel);
    }
  }

  // --------------------------------------------------------------- execution

  /** The effect of one instruction: the new frame stack and what it printed. */
  datatype Effect = Effect(store: Store.Store, printed: seq<string>)

  /** `defvar <var>`. */
  function DefVar(st: Store.Store, ins: Instruction): (r: Result<Store.Store>)
    requires st.Valid()
    ensures r.Ok? ==> r.value.Valid()
    ensures 1 !in ins.args ==> r == Err(InternalError)
    ensures 1 in ins.args ==> r == Store.DefVar(st, ins.args[1].text)
  {
    var iden :- ArgValue(ins, 1);
    Store.DefVar(st, iden)
  }

  /** `move <var> <symb>`: the literal of the second argument is stored in the variable. */
  function Move(st: Store.Store, ins: Instruction): (r: Result<Store.Store>)
    requires st.Valid()
    ensures r.Ok? ==> r.value.Valid()
    ensures TypeAttr(ins, 2) == Ok("var") && 1 in ins.args ==> r == Err(NotImplemented)
    ensures 1 !in ins.args ==> r == Err(InternalError)
    ensures 1 in ins.args && TypeAttr(ins, 2).Err? ==> r == Err(InternalError)
    ensures 1 in ins.args && TypeAttr(ins, 2).Ok? && TypeAttr(ins, 2).value != "var" ==>
      r == Store.SetVar(st, ins.args[1].text, TypeAttr(ins, 2).value, ins.args[2].text)
    ensures r.Ok? ==>
      1 in ins.args && 2 in ins.args && ins.args[2].typeAttr.Some? && Store.Lookup(st, ins.args[1].text).Ok?
    ensures r.Ok? ==>
      var at := Store.Lookup(st, ins.args[1].text).value;
      r.value == Store.SetSlot(st, at.0, at.1,
        Store.Slot(st.frames[at.0][at.1].iden, ins.args[2].typeAttr.value, Some(ins.args[2].text)))
  {
    var target :- ArgValue(ins, 1);
    var srcType :- TypeAttr(ins, 2);
    if srcType == "var" then Err(NotImplemented)
    else
      match ArgValue(ins, 2)
      case Err(e) => Err(e)
      case Ok(srcValue) => Store.SetVar(st, target, srcType, srcValue)
  }

  /** `write <symb>`: the text to print; int literals verbatim, string literals decoded. */
  function Write(ins: Instruction): (r: Result<string>)
    ensures r.Ok? ==> 1 in ins.args && ins.args[1].typeAttr.Some?
    ensures r.Ok? && ins.args[1].typeAttr == Some("int") ==> r.value == ins.args[1].text
    ensures r.Ok? && ins.args[1].typeAttr == Some("string") ==> r.value == Unescape(ins.args[1].text)
    ensures TypeAttr(ins, 1).Ok? && TypeAttr(ins, 1).value != "int" && TypeAttr(ins, 1).value != "string" ==>
            r == Err(NotImplemented)
    ensures TypeAttr(ins, 1) == Ok("int") ==> r == Ok(ins.args[1].text)
    ensures TypeAttr(ins, 1) == Ok("string") ==> r == Ok(Unescape(ins.args[1].text))
    ensures TypeAttr(ins, 1).Err? ==> r == Err(InternalError)
  {
    var t :- TypeAttr(ins, 1);
    if t == "int" then ArgValue(ins, 1)
    else if t == "string" then
      match ArgValue(ins, 1)
      case Ok(text) => Ok(Unescape(text))
      case Err(e) => Err(e)
    else Err(NotImplemented)
  }

  /** A change of the frame stack that prints nothing, or the exception that replaced it. */
  function Silent(r: Result<Store.Store>): Result<Effect>
  {
    match r
    case Ok(st) => Ok(Effect(st, []))
    case Err(e) => Err(e)
  }

  /** `Instruction::execute`. */
  function Step(st: Store.Store, ins: Instruction): (r: Result<Effect>)
    requires st.Valid()
    ensures r.Ok? ==> r.value.store.Valid()
    ensures !Handled(ins.opcode) ==> r == Err(NotImplemented)
    ensures ins.opcode == "move" ==> r == Silent(Move(st, ins))
    ensures ins.opcode == "defvar" ==> r == Silent(DefVar(st, ins))
    ensures ins.opcode == "createframe" ==> r == Ok(Effect(Store.CreateFrame(st), []))
    ensures ins.opcode == "pushframe" ==> r == Ok(Effect(Store.PushFrame(st), []))
    ensures ins.opcode == "popframe" ==> r == Silent(Store.PopFrame(st))
    ensures ins.opcode == "dprint" || ins.opcode == "break" ==> r == Ok(Effect(st, []))
    ensures ins.opcode == "write" ==>
      r == if Write(ins).Ok? then Ok(Effect(st, [Write(ins).value])) else Err(Write(ins).error)
    ensures r.Ok? && ins.opcode != "write" ==> r.value.printed == []
    ensures r.Ok? && ins.opcode == "write" ==> r.value.store == st && Write(ins).Ok? && r.value.printed == [Write(ins).value]
  {
    var op := ins.opcode;
    if op == "move" then
      var st' :- Move(st, ins);
      Ok(Effect(st', []))
    else if op == "defvar" then
      var st' :- DefVar(st, ins);
      Ok(Effect(st', []))
    else if op == "createframe" then Ok(Effect(Store.CreateFrame(st), []))
    else if op == "pushframe" then Ok(Effect(Store.PushFrame(st), []))
    else if op == "popframe" then
      var st' :- Store.PopFrame(st);
      Ok(Effect(st', []))
    else if op == "write" then
      var text :- Write(ins);
      Ok(Effect(st, [text]))
    else if op == "dprint" || op == "break" then Ok(Effect(st, []))
    else Err(NotImplemented)
  }

  /** Where a run ends: the frame stack, everything printed, and whether an instruction threw. */
  datatype Trace = Trace(store: Store.Store, printed: seq<string>, status: Outcome)

  /** `InstructionList::execute` from frame stack `st`: every instruction in order, stopping at the first exception. */
  function Run(st: Store.Store, list: seq<Instruction>): (t: Trace)
    requires st.Valid()
    ensures t.store.Valid()
    ensures |t.printed| <= |list|
    decreases |list|
  {
    if list == [] then Trace(st, [], Pass)
    else match Step(st, list[0])
      case Err(e) => Trace(st, [], Fail(e))
      case Ok(eff) =>
        var t := Run(eff.store, list[1..]);
        Trace(t.store, eff.printed + t.printed, t.status)
  }

  /** Running two lists one after the other is running their concatenation. */
  lemma {:induction false} RunAppend(st: Store.Store, a: seq<Instruction>, b: seq<Instruction>)
    requires st.Valid()
    ensures var ta := Run(st, a);
            Run(st, a + b) ==
              if ta.status.Pass? then
                var tb := Run(ta.store, b);
                Trace(tb.store, ta.printed + tb.printed, tb.status)
              else ta
    decreases |a|
  {
    if a == [] {
      assert a + b == b;
    } else {
      var ab := a + b;
      assert ab[0] == a[0] && ab[1..] == a[1..] + b;
      match Step(st, a[0])
      case Err(_) =>
      case Ok(eff) =>
        RunAppend(eff.store, a[1..], b);
        var t1 := Run(eff.store, a[1..]);
        if t1.status.Pass? {
          var tb := Run(t1.store, b);
          assert eff.printed + (t1.printed + tb.printed) == (eff.printed + t1.printed) + tb.printed;
        }
    }
  }

  /** Running from position `i` is the step at `i` followed, unless it threw, by the run from `i + 1`. */
  lemma RunFrom(st: Store.Store, list: seq<Instruction>, i: nat)
    requires st.Valid() && i < |list|
    ensures var step := Step(st, list[i]);
            Run(st, list[i..]) ==
              if step.Err? then Trace(st, [], Fail(step.error))
              else
                var t := Run(step.value.store, list[i + 1..]);
                Trace(t.store, step.value.printed + t.printed, t.status)
  {
    assert list[i..][0] == list[i] && list[i..][1..] == list[i + 1..];
  }

  /** A step that succeeds: the run from `i` prints the step's output, then the run from `i + 1`. */
  lemma RunAfterOk(st: Store.Store, list: seq<Instruction>, i: nat, eff: Effect)
    requires st.Valid() && i < |list| && Step(st, list[i]) == Ok(eff)
    ensures eff.store.Valid()
    ensures Run(st, list[i..]).status == Run(eff.store, list[i + 1..]).status
    ensures Run(st, list[i..]).printed == eff.printed + Run(eff.store, list[i + 1..]).printed
  {
    RunFrom(st, list, i);
  }

  /** A step that throws ends the run from `i` there, with nothing printed. */
  lemma RunAfterErr(st: Store.Store, list: seq<Instruction>, i: nat, e: Error)
    requires st.Valid() && i < |list| && Step(st, list[i]) == Err(e)
    ensures Run(st, list[i..]).status == Fail(e) && Run(st, list[i..]).printed == []
  {
    RunFrom(st, list, i);
  }
}

=== FILE: properties.dfy ===
/**
 * What the engine promises about variables, frames and output, proved on
 * the value model (Store and Instructions). The heap classes of Frames and
 * Engine are proved to act exactly as that model, so every property here
 * holds of them too.
 */
module Properties {
  import opened Base
  import opened Strings
  import opened Store
  import Instructions

  // ------------------------------------------------------------- frames

  /** `popframe` right after `pushframe` gives back the stack as it was. */
  lemma PopAfterPush(st: Store)
    requires st.Valid()
    ensures PopFrame(PushFrame(st)) == Ok(st)
  {
    assert (st.lf + [st.tf])[..|st.lf|] == st.lf;
  }

  /** `popframe` fails with a frame-access error exactly on an empty local stack, and then changes nothing. */
  lemma PopFrameFails(st: Store)
    requires st.Valid()
    ensures PopFrame(st).Err? <==> |st.lf| == 0
    ensures PopFrame(st).Err? ==> PopFrame(st).error == FrameAccess
    ensures PopFrame(st).Ok? ==> PopFrame(st).value.frames == st.frames && PopFrame(st).value.tf == st.tf
  {
  }

  /** `createframe` makes a new, empty TF and leaves every existing frame as it was. */
  lemma CreateFrameFresh(st: Store)
    requires st.Valid()
    ensures GetTf(CreateFrame(st)) == Ok(|st.frames|)
    ensures CreateFrame(st).frames[|st.frames|] == []
    ensures forall g :: 0 <= g < |st.frames| ==> CreateFrame(st).frames[g] == st.frames[g]
    ensures CreateFrame(st).lf == st.lf
  {
  }

  /**
   * `pushframe` does not clear TF: afterwards `TF@n` and `LF@n` name the
   * same frame, so they resolve to the same variable.
   */
  lemma PushedTfAliasesLf(st: Store, n: string)
    requires st.Valid() && st.tf.Some? && '@' !in n
    ensures GetLf(PushFrame(st)) == GetTf(PushFrame(st))
    ensures Lookup(PushFrame(st), "LF@" + n) == Lookup(PushFrame(st), "TF@" + n)
  {
    AliasedLookup(PushFrame(st), n);
  }

  /** While the top LF is TF, `LF@n` and `TF@n` resolve alike. */
  lemma AliasedLookup(st: Store, n: string)
    requires st.Valid() && st.tf.Some? && |st.lf| > 0 && st.lf[|st.lf| - 1] == st.tf && '@' !in n
    ensures Lookup(st, "LF@" + n) == Lookup(st, "TF@" + n)
  {
    ReferenceParts("LF", n);
    ReferenceParts("TF", n);
    assert "LF" + "@" + n == "LF@" + n && "TF" + "@" + n == "TF@" + n;
    FramePrefixes();
  }

  /** The three frame prefixes are already upper case. */
  lemma FramePrefixes()
    ensures Upper("GF") == "GF" && Upper("LF") == "LF" && Upper("TF") == "TF"
  {
    assert Upper("GF")[0] == 'G' && Upper("GF")[1] == 'F';
    assert Upper("LF")[0] == 'L' && Upper("LF")[1] == 'F';
    assert Upper("TF")[0] == 'T' && Upper("TF")[1] == 'F';
  }

  /** A variable defined through TF after `pushframe` is visible through LF. */
  lemma DefinedThroughAlias(st: Store, n: string)
    requires st.Valid() && st.tf.Some? && '@' !in n
    requires DefVar(PushFrame(st), "TF@" + n).Ok?
    ensures var after := DefVar(PushFrame(st), "TF@" + n).value;
            Lookup(after, "LF@" + n).Ok? && SlotAt(after, Lookup(after, "LF@" + n).value) == Untyped(n)
  {
    var iden := "TF@" + n;
    ReferenceParts("TF", n);
    assert "TF" + "@" + n == iden;
    FramePrefixes();
    DefVarThenLookup(PushFrame(st), iden);
    var after := DefVar(PushFrame(st), iden).value;
    AliasedLookup(after, n);
  }

  /** Pushing while there is no TF leaves a null on top, and every LF access then fails with a type error. */
  lemma PushWithoutTf(st: Store, iden: string)
    requires st.Valid() && st.tf.None?
    ensures GetLf(PushFrame(st)) == Err(EngineTypeError)
    ensures FramePart(iden) == "LF" ==> Lookup(PushFrame(st), iden) == Err(EngineTypeError)
    ensures FramePart(iden) == "LF" ==> DefVar(PushFrame(st), iden) == Err(EngineTypeError)
  {
  }

  // ---------------------------------------------------------- variables

  /** The lookup and the insertion of a reference depend only on its frame part and its name part. */
  lemma SamePartsSameEffect(st: Store, a: string, b: string)
    requires st.Valid()
    requires FramePart(a) == FramePart(b) && NamePart(a) == NamePart(b)
    ensures Lookup(st, a) == Lookup(st, b)
    ensures DefVar(st, a) == DefVar(st, b)
  {
  }

  /** The frame prefix is case-insensitive: `lf@x` is `LF@x`. */
  lemma PrefixCaseInsensitive(st: Store, p: string, n: string)
    requires st.Valid() && '@' !in p && '@' !in n
    ensures Lookup(st, p + "@" + n) == Lookup(st, Upper(p) + "@" + n)
    ensures DefVar(st, p + "@" + n) == DefVar(st, Upper(p) + "@" + n)
  {
    assert '@' !in Upper(p) by {
      forall i | 0 <= i < |p|
        ensures Upper(p)[i] != '@'
      {
        assert p[i] != '@';
      }
    }
    ReferenceParts(p, n);
    ReferenceParts(Upper(p), n);
    UpperIdempotent(p);
    SamePartsSameEffect(st, p + "@" + n, Upper(p) + "@" + n);
  }

  /**
   * A reference with an unknown frame prefix never resolves; `defvar` of
   * one inserts nothing, or fails with a type error when there is no name.
   */
  lemma UnknownPrefix(st: Store, iden: string)
    requires st.Valid()
    requires FramePart(iden) != "GF" && FramePart(iden) != "LF" && FramePart(iden) != "TF"
    ensures Lookup(st, iden) == Err(VariableAccess)
    ensures NamePart(iden).Some? ==> DefVar(st, iden) == Ok(st)
    ensures NamePart(iden).None? ==> DefVar(st, iden) == Err(EngineTypeError)
  {
  }

  /**
   * A reference whose frame exists resolves exactly when its name is in that
   * frame; a lookup that fails reports a variable-access error, or a type
   * error for a null name or a null top entry.
   */
  lemma LookupOutcome(st: Store, iden: string)
    requires st.Valid()
    ensures var f := Designated(st, FramePart(iden));
            f.Some? && NamePart(iden).Some? ==>
              (Lookup(st, iden).Ok? <==> exists k :: 0 <= k < |st.frames[f.value]| && st.frames[f.value][k].iden == NamePart(iden).value)
    ensures Lookup(st, iden).Err? ==> Lookup(st, iden).error == VariableAccess || Lookup(st, iden).error == EngineTypeError
  {
    var frame := FramePart(iden);
    if frame == "LF" && GetLf(st).Err? {
      assert LookupInternal(st, iden) == Err(GetLf(st).error);
    }
  }

  /** No TF, an empty local stack, or a name absent from GF: the lookup is a variable-access error. */
  lemma LookupFailures(st: Store, n: string)
    requires st.Valid() && '@' !in n
    ensures st.tf.None? ==> Lookup(st, "TF@" + n) == Err(VariableAccess)
    ensures |st.lf| == 0 ==> Lookup(st, "LF@" + n) == Err(VariableAccess)
    ensures (forall k :: 0 <= k < |st.frames[0]| ==> st.frames[0][k].iden != n) ==> Lookup(st, "GF@" + n) == Err(VariableAccess)
  {
    ReferenceParts("GF", n);
    ReferenceParts("LF", n);
    ReferenceParts("TF", n);
    assert "GF" + "@" + n == "GF@" + n && "LF" + "@" + n == "LF@" + n && "TF" + "@" + n == "TF@" + n;
    FramePrefixes();
  }

  /** `defvar` into a missing TF or an empty local stack is a frame-access error. */
  lemma DefVarFailures(st: Store, n: string)
    requires st.Valid() && '@' !in n
    ensures st.tf.None? ==> DefVar(st, "TF@" + n) == Err(FrameAccess)
    ensures |st.lf| == 0 ==> DefVar(st, "LF@" + n) == Err(FrameAccess)
  {
    ReferenceParts("LF", n);
    ReferenceParts("TF", n);
    assert "LF" + "@" + n == "LF@" + n && "TF" + "@" + n == "TF@" + n;
    FramePrefixes();
  }

  /** `defvar` of a name absent from an existing frame succeeds and adds exactly that name there. */
  lemma DefVarSucceeds(st: Store, iden: string)
    requires st.Valid() && Lookup(st, iden) == Err(VariableAccess) && NamePart(iden).Some?
    requires Designated(st, FramePart(iden)).Some?
    ensures DefVar(st, iden).Ok?
    ensures var f := Designated(st, FramePart(iden)).value;
            DefVar(st, iden).value.frames == st.frames[f := st.frames[f] + [Untyped(NamePart(iden).value)]]
  {
    var f := Designated(st, FramePart(iden)).value;
    InsertAbsent(st.frames[f], Untyped(NamePart(iden).value));
  }

  /** After a successful `defvar`, the reference resolves to an untyped variable of that name. */
  lemma DefVarThenLookup(st: Store, iden: string)
    requires st.Valid() && DefVar(st, iden).Ok?
    requires FramePart(iden) == "GF" || FramePart(iden) == "LF" || FramePart(iden) == "TF"
    ensures NamePart(iden).Some?
    ensures var after := DefVar(st, iden).value;
            Lookup(after, iden).Ok? && SlotAt(after, Lookup(after, iden).value) == Untyped(NamePart(iden).value)
  {
    var frame := FramePart(iden);
    var f: nat := if frame == "GF" then 0 else if frame == "LF" then GetLf(st).value else GetTf(st).value;
    assert DefVar(st, iden).value == InsertInto(st, f, Untyped(NamePart(iden).value));
    InsertedIsFound(st, iden, f);
  }

  /** The slot inserted into the frame a reference's prefix selects is what the reference then resolves to. */
  lemma InsertedIsFound(st: Store, iden: string, f: nat)
    requires st.Valid() && f < |st.frames| && NamePart(iden).Some?
    requires || (FramePart(iden) == "GF" && f == 0)
             || (FramePart(iden) == "LF" && GetLf(st) == Ok(f))
             || (FramePart(iden) == "TF" && GetTf(st) == Ok(f))
    ensures var after := InsertInto(st, f, Untyped(NamePart(iden).value));
            Lookup(after, iden).Ok? && SlotAt(after, Lookup(after, iden).value) == Untyped(NamePart(iden).value)
  {
    var s := Untyped(NamePart(iden).value);
    var after := InsertInto(st, f, s);
    InsertThenFind(st.frames[f], s);
    var k := SlotIndex(after.frames[f], s.iden).value;
    assert Find(after, f, NamePart(iden)) == Ok((f, k));
    assert LookupInternal(after, iden) == Ok((f, k));
  }

  /** `defvar` leaves the lookup of every other name as it was. */
  lemma DefVarKeepsOthers(st: Store, iden: string, other: string)
    requires st.Valid() && DefVar(st, iden).Ok?
    requires NamePart(other) != NamePart(iden)
    ensures var after := DefVar(st, iden).value;
            Lookup(after, other) == Lookup(st, other) &&
            (Lookup(st, other).Ok? ==> SlotAt(after, Lookup(st, other).value) == SlotAt(st, Lookup(st, other).value))
  {
    var frame := FramePart(iden);
    if frame == "GF" || frame == "LF" || frame == "TF" {
      var name := NamePart(iden).value;
      var f: nat := if frame == "GF" then 0 else if frame == "LF" then GetLf(st).value else GetTf(st).value;
      assert DefVar(st, iden).value == InsertInto(st, f, Untyped(name));
      LookupAfterInsert(st, f, Untyped(name), other);
    }
  }

  /** Inserting a slot leaves the lookup of every other name, and the slot it finds, as they were. */
  lemma LookupAfterInsert(st: Store, f: nat, s: Slot, iden: string)
    requires st.Valid() && f < |st.frames| && NamePart(iden) != Some(s.iden)
    ensures var after := InsertInto(st, f, s);
            Lookup(after, iden) == Lookup(st, iden) &&
            (Lookup(st, iden).Ok? ==> SlotAt(after, Lookup(st, iden).value) == SlotAt(st, Lookup(st, iden).value))
  {
    var after := InsertInto(st, f, s);
    var o := NamePart(iden);
    if o.Some? {
      forall g | 0 <= g < |st.frames|
        ensures SlotIndex(after.frames[g], o.value) == SlotIndex(st.frames[g], o.value)
      {
        if g == f {
          InsertKeepsOthers(st.frames[f], s, o.value);
        }
      }
    }
    LookupAgrees(st, after, iden);
    if Lookup(st, iden).Ok? {
      var at := Lookup(st, iden).value;
      if at.0 == f {
        InsertKeepsSlot(st.frames[f], s, at.1);
      }
    }
  }

  /** Inserting keeps every slot of another name where it was. */
  lemma InsertKeepsSlot(vars: seq<Slot>, s: Slot, j: nat)
    requires j < |vars| && vars[j].iden != s.iden
    ensures j < |Insert(vars, s)| && Insert(vars, s)[j] == vars[j]
  {
    match SlotIndex(vars, s.iden)
    case None =>
    case Some(k) =>
      assert k != j;
  }

  /** Two stacks with the same TF, LF and searches for a name resolve a reference to it alike. */
  lemma LookupAgrees(st: Store, other: Store, iden: string)
    requires st.Valid() && other.Valid()
    requires other.tf == st.tf && other.lf == st.lf && |other.frames| == |st.frames|
    requires NamePart(iden).Some? ==>
      forall g :: 0 <= g < |st.frames| ==> SlotIndex(other.frames[g], NamePart(iden).value) == SlotIndex(st.frames[g], NamePart(iden).value)
    ensures Lookup(other, iden) == Lookup(st, iden)
  {
  }

  /** Replacing a slot by one of the same name leaves every search as it was. */
  lemma SlotIndexReplace(vars: seq<Slot>, k: nat, s: Slot, id: string)
    requires k < |vars| && s.iden == vars[k].iden
    ensures SlotIndex(vars[k := s], id) == SlotIndex(vars, id)
  {
    var w := vars[k := s];
    assert forall j :: 0 <= j < |w| ==> w[j].iden == vars[j].iden;
    match SlotIndex(vars, id)
    case None =>
    case Some(m) =>
      SlotIndexIs(w, id, m);
  }

  /** Assigning a variable does not change what any reference resolves to. */
  lemma LookupAfterSetSlot(st: Store, at: (nat, nat), s: Slot, iden: string)
    requires st.Valid() && at.0 < |st.frames| && at.1 < |st.frames[at.0]|
    requires s.iden == st.frames[at.0][at.1].iden
    ensures Lookup(SetSlot(st, at.0, at.1, s), iden) == Lookup(st, iden)
  {
    var after := SetSlot(st, at.0, at.1, s);
    var name := NamePart(iden);
    if name.Some? {
      forall g | 0 <= g < |st.frames|
        ensures SlotIndex(after.frames[g], name.value) == SlotIndex(st.frames[g], name.value)
      {
        if g == at.0 {
          SlotIndexReplace(st.frames[g], at.1, s, name.value);
        }
      }
    }
    LookupAgrees(st, after, iden);
  }

  /**
   * After a successful `move`, the target still resolves to the same
   * variable, which now holds the literal's type and text.
   */
  lemma MoveThenLookup(st: Store, ins: Instructions.Instruction)
    requires st.Valid() && Instructions.Move(st, ins).Ok?
    ensures 1 in ins.args && 2 in ins.args && ins.args[2].typeAttr.Some?
    ensures var target := ins.args[1].text;
            var after := Instructions.Move(st, ins).value;
            Lookup(st, target).Ok? && Lookup(after, target) == Lookup(st, target) &&
            SlotAt(after, Lookup(st, target).value) ==
              Slot(SlotAt(st, Lookup(st, target).value).iden, ins.args[2].typeAttr.value, Some(ins.args[2].text))
  {
    var target := ins.args[1].text;
    var at := Lookup(st, target).value;
    var s := Slot(SlotAt(st, at).iden, ins.args[2].typeAttr.value, Some(ins.args[2].text));
    LookupAfterSetSlot(st, at, s, target);
  }

  /** `move` into a variable that does not resolve fails, and changes nothing. */
  lemma MoveUnresolved(st: Store, ins: Instructions.Instruction)
    requires st.Valid() && 1 in ins.args && Lookup(st, ins.args[1].text).Err?
    ensures Instructions.Move(st, ins).Err?
  {
  }

  // -------------------------------------------------------------- output

  /** The texts the write instructions of `list` would print, in order. */
  function Writes(list: seq<Instructions.Instruction>): (r: seq<string>)
    ensures |r| <= |list|
  {
    if list == [] then []
    else (if list[0].opcode == "write" && Instructions.Write(list[0]).Ok? then [Instructions.Write(list[0]).value] else []) + Writes(list[1..])
  }

  /**
   * The output of a run is a prefix of the texts its write instructions
   * print, and all of them when no instruction throws.
   */
  lemma {:induction false} RunPrintsWrites(st: Store, list: seq<Instructions.Instruction>)
    requires st.Valid()
    ensures Instructions.Run(st, list).printed <= Writes(list)
    ensures Instructions.Run(st, list).status == Pass ==> Instructions.Run(st, list).printed == Writes(list)
    decreases |list|
  {
    if list != [] {
      match Instructions.Step(st, list[0])
      case Err(_) =>
      case Ok(eff) =>
        RunPrintsWrites(eff.store, list[1..]);
        var t := Instructions.Run(eff.store, list[1..]);
        assert Instructions.Run(st, list).printed == eff.printed + t.printed;
        assert Writes(list) == eff.printed + Writes(list[1..]);
    }
  }

  /** A run that reaches an instruction `execute` has no branch for ends in an exception. */
  lemma {:induction false} UnhandledStops(st: Store, list: seq<Instructions.Instruction>, i: nat)
    requires st.Valid() && i < |list| && !Instructions.Handled(list[i].opcode)
    ensures Instructions.Run(st, list).status.Fail?
    decreases |list|
  {
    match Instructions.Step(st, list[0])
    case Err(_) =>
    case Ok(eff) =>
      assert i > 0;
      assert list[1..][i - 1] == list[i];
      UnhandledStops(eff.store, list[1..], i - 1);
  }

  /**
   * Labels and jumps pass the static check but are not executed: a label is
   * collected and never faulted, a jump to a collected label is accepted, and
   * yet a program holding either never completes without an exception.
   */
  lemma ControlFlowStops(st: Store, list: seq<Instructions.Instruction>, i: nat)
    requires st.Valid() && i < |list| && (Instructions.IsLabel(list[i]) || Instructions.IsJump(list[i]) || list[i].opcode == "call")
    ensures Instructions.IsLabel(list[i]) ==>
            list[i].content in Instructions.Labels(list) && Instructions.JumpFault(list[i], Instructions.Labels(list)).None?
    ensures Instructions.IsJump(list[i]) && 1 in list[i].args && list[i].args[1].text in Instructions.Labels(list) ==>
            Instructions.JumpFault(list[i], Instructions.Labels(list)).None?
    ensures Instructions.Run(st, list).status.Fail?
  {
    UnhandledStops(st, list, i);
  }

}

=== FILE: store.dfy ===
/**
 * The frame stack as a value: the specification the heap classes of module
 * Frames are proved against.
 *
 * Every frame that was ever created has a number; frame 0 is the global
 * frame. The temporary frame and the entries of the local-frame stack are
 * frame numbers, or None for PHP's null. Two entries holding the same number
 * are the same PHP object, which is how `pushframe` leaving `tf` in place is
 * captured: afterwards TF and the top LF are one frame.
 */
module Store {
  import opened Base
  import opened Strings

  /** The observable state of one `Variable`: identifier, type and value. */
  datatype Slot = Slot(iden: string, vtype: string, value: Option<string>)

  /** A freshly constructed variable: empty type, value never assigned. */
  function Untyped(iden: string): Slot
  {
    Slot(iden, "", None)
  }

  /** The types `set_value` accepts. */
  predicate SettableType(t: string)
  {
    t == "int" || t == "bool" || t == "string" || t == "nil"
  }

  /** `Variable::set_value` on a slot. */
  function Assign(s: Slot, t: string, v: string): (r: Result<Slot>)
    ensures r.Ok? <==> SettableType(t)
    ensures r.Ok? ==> r.value.iden == s.iden && r.value.vtype == t && r.value.value == Some(v)
    ensures r.Err? ==> r.error == InternalError
  {
    if SettableType(t) then Ok(Slot(s.iden, t, Some(v))) else Err(InternalError)
  }

  /** `Frame::lookup`: the position of the first slot named `id`. */
  function SlotIndex(vars: seq<Slot>, id: string): (r: Option<nat>)
    ensures r.Some? ==> r.value < |vars| && vars[r.value].iden == id
    ensures r.Some? ==> forall j :: 0 <= j < r.value ==> vars[j].iden != id
    ensures r.None? <==> forall j :: 0 <= j < |vars| ==> vars[j].iden != id
  {
    if vars == [] then None
    else if vars[0].iden == id then Some(0)
    else match SlotIndex(vars[1..], id)
      case None => None
      case Some(k) => Some(k + 1)
  }

  /** `Frame::insert_var`: append a new name, or replace the first slot of that name. */
  function Insert(vars: seq<Slot>, s: Slot): (r: seq<Slot>)
    ensures SlotIndex(vars, s.iden).None? ==> r == vars + [s]
    ensures SlotIndex(vars, s.iden).Some? ==> r == vars[SlotIndex(vars, s.iden).value := s]
  {
    match SlotIndex(vars, s.iden)
    case None => vars + [s]
    case Some(k) => vars[k := s]
  }

  /** An absent name is appended and the frame grows by one. */
  lemma InsertAbsent(vars: seq<Slot>, s: Slot)
    requires forall j :: 0 <= j < |vars| ==> vars[j].iden != s.iden
    ensures Insert(vars, s) == vars + [s]
    ensures |Insert(vars, s)| == |vars| + 1
  {
  }

  /**
   * A present name is replaced where it stands: the size is unchanged and
   * every other position keeps its slot.
   */
  lemma InsertPresent(vars: seq<Slot>, s: Slot, k: nat)
    requires k < |vars| && vars[k].iden == s.iden
    requires forall j :: 0 <= j < k ==> vars[j].iden != s.iden
    ensures |Insert(vars, s)| == |vars|
    ensures Insert(vars, s)[k] == s
    ensures forall j :: 0 <= j < |vars| && j != k ==> Insert(vars, s)[j] == vars[j]
  {
    assert SlotIndex(vars, s.iden) == Some(k);
  }

  /** After inserting, the name is found, and finds the inserted slot. */
  lemma InsertThenFind(vars: seq<Slot>, s: Slot)
    ensures SlotIndex(Insert(vars, s), s.iden).Some?
    ensures Insert(vars, s)[SlotIndex(Insert(vars, s), s.iden).value] == s
  {
    var r := Insert(vars, s);
    match SlotIndex(vars, s.iden)
    case None =>
      assert r[|vars|] == s;
    case Some(k) =>
      assert r[k] == s;
      assert forall j :: 0 <= j < k ==> r[j] == vars[j];
  }

  /** The first-position characterisation determines `SlotIndex`. */
  lemma SlotIndexIs(vars: seq<Slot>, id: string, m: nat)
    requires m < |vars| && vars[m].iden == id
    requires forall j :: 0 <= j < m ==> vars[j].iden != id
    ensures SlotIndex(vars, id) == Some(m)
  {
  }

  /** Inserting one name leaves the lookup of every other name as it was. */
  lemma InsertKeepsOthers(vars: seq<Slot>, s: Slot, id: string)
    requires id != s.iden
    ensures SlotIndex(Insert(vars, s), id) == SlotIndex(vars, id)
    ensures SlotIndex(vars, id).Some? ==>
      Insert(vars, s)[SlotIndex(vars, id).value] == vars[SlotIndex(vars, id).value]
  {
    var r := Insert(vars, s);
    assert forall j :: 0 <= j < |r| ==> r[j] == s || (j < |vars| && r[j] == vars[j]);
    match SlotIndex(vars, id)
    case None =>
      assert forall j :: 0 <= j < |r| ==> r[j].iden != id;
    case Some(m) =>
      assert r[m] == vars[m];
      SlotIndexIs(r, id, m);
  }

  /** The frame stack: frame 0 is GF, `tf` and `lf` hold frame numbers. */
  datatype Store = Store(frames: seq<seq<Slot>>, tf: Option<nat>, lf: seq<Option<nat>>)
  {
    predicate Names(r: Option<nat>)
    {
      r.Some? ==> r.value < |frames|
    }

    predicate Valid()
    {
      |frames| > 0 && Names(tf) && forall k :: 0 <= k < |lf| ==> Names(lf[k])
    }
  }

  /** A new `FrameStack`: an empty GF, no TF, no LF. */
  function Initial(): (st: Store)
    ensures st.Valid()
    ensures st.frames == [[]] && st.tf.None? && st.lf == []
  {
    Store([[]], None, [])
  }

  /** `get_tf`. */
  function GetTf(st: Store): (r: Result<nat>)
    requires st.Valid()
    ensures r.Ok? ==> r.value < |st.frames|
    ensures r.Ok? <==> st.tf.Some?
    ensures r.Ok? ==> r.value == st.tf.value
    ensures r.Err? ==> r.error == FrameAccess
  {
    if st.tf.None? then Err(FrameAccess) else Ok(st.tf.value)
  }

  /** `get_lf`: the top entry; a null entry violates the declared return type. */
  function GetLf(st: Store): (r: Result<nat>)
    requires st.Valid()
    ensures r.Ok? ==> r.value < |st.frames|
    ensures r == Err(FrameAccess) <==> |st.lf| == 0
    ensures r == Err(EngineTypeError) <==> |st.lf| > 0 && st.lf[|st.lf| - 1].None?
    ensures r.Ok? ==> st.lf[|st.lf| - 1] == Some(r.value)
  {
    if |st.lf| == 0 then Err(FrameAccess)
    else if st.lf[|st.lf| - 1].None? then Err(EngineTypeError)
    else Ok(st.lf[|st.lf| - 1].value)
  }

  /** `create_frame`: a new empty frame becomes TF; the old TF is dropped. */
  function CreateFrame(st: Store): (r: Store)
    requires st.Valid()
    ensures r.Valid()
    ensures r.frames == st.frames + [[]] && r.tf == Some(|st.frames|) && r.lf == st.lf
  {
    Store(st.frames + [[]], Some(|st.frames|), st.lf)
  }

  /** `push_frame`: TF (possibly null) is pushed and stays TF. */
  function PushFrame(st: Store): (r: Store)
    requires st.Valid()
    ensures r.Valid()
    ensures r.frames == st.frames && r.tf == st.tf && r.lf == st.lf + [st.tf]
  {
    st.(lf := st.lf + [st.tf])
  }

  /** `pop_frame`: the top LF is discarded. */
  function PopFrame(st: Store): (r: Result<Store>)
    requires st.Valid()
    ensures r.Ok? ==> r.value.Valid()
    ensures r.Err? <==> |st.lf| == 0
    ensures r.Err? ==> r.error == FrameAccess
    ensures r.Ok? ==> r.value == Store(st.frames, st.tf, st.lf[..|st.lf| - 1])
  {
    if |st.lf| == 0 then Err(FrameAccess) else Ok(st.(lf := st.lf[..|st.lf| - 1]))
  }

  /** `Frame::lookup` called with the name part; PHP refuses a null name. */
  function Find(st: Store, f: nat, name: Option<string>): (r: Result<(nat, nat)>)
    requires st.Valid() && f < |st.frames|
    ensures r.Ok? ==> r.value.0 == f && r.value.1 < |st.frames[f]|
    ensures r.Ok? ==> name.Some? && st.frames[f][r.value.1].iden == name.value
    ensures name.None? ==> r == Err(EngineTypeError)
    ensures name.Some? ==> (r.Ok? <==> exists k :: 0 <= k < |st.frames[f]| && st.frames[f][k].iden == name.value)
    ensures name.Some? && r.Err? ==> r.error == VariableAccess
  {
    if name.None? then Err(EngineTypeError)
    else match SlotIndex(st.frames[f], name.value)
      case None => Err(VariableAccess)
      case Some(k) => Ok((f, k))
  }

  predicate KnownPrefix(frame: string)
  {
    frame == "GF" || frame == "LF" || frame == "TF"
  }

  /** The frame a prefix designates when that frame exists: GF, the top LF, or TF. */
  function Designated(st: Store, frame: string): (r: Option<nat>)
    requires st.Valid()
    ensures r.Some? ==> KnownPrefix(frame) && r.value < |st.frames|
    ensures frame == "GF" ==> r == Some(0)
    ensures frame == "LF" ==> (r.Some? <==> GetLf(st).Ok?) && (r.Some? ==> r.value == GetLf(st).value)
    ensures frame == "TF" ==> r == st.tf
  {
    if frame == "GF" then Some(0)
    else if frame == "LF" then (match GetLf(st) case Ok(f) => Some(f) case Err(_) => None)
    else if frame == "TF" then st.tf
    else None
  }

  /**
   * `lookup_internal`: frame number and position of the referenced variable.
   * A missing TF or an empty local stack is a frame-access error, a null top
   * entry a type error, an unknown prefix or an absent name a variable-access error.
   */
  function LookupInternal(st: Store, iden: string): (r: Result<(nat, nat)>)
    requires st.Valid()
    ensures r.Ok? ==> r.value.0 < |st.frames| && r.value.1 < |st.frames[r.value.0]|
    ensures r.Ok? ==> NamePart(iden).Some? && st.frames[r.value.0][r.value.1].iden == NamePart(iden).value
    ensures r.Ok? ==> Designated(st, FramePart(iden)) == Some(r.value.0)
    ensures Designated(st, FramePart(iden)).Some? ==> r == Find(st, Designated(st, FramePart(iden)).value, NamePart(iden))
    ensures !KnownPrefix(FramePart(iden)) ==> r == Err(VariableAccess)
    ensures FramePart(iden) == "TF" && st.tf.None? ==> r == Err(FrameAccess)
    ensures FramePart(iden) == "LF" && |st.lf| == 0 ==> r == Err(FrameAccess)
    ensures FramePart(iden) == "LF" && |st.lf| > 0 && st.lf[|st.lf| - 1].None? ==> r == Err(EngineTypeError)
  {
    var frame := FramePart(iden);
    var name := NamePart(iden);
    if frame == "GF" then Find(st, 0, name)
    else if frame == "LF" then
      var f :- GetLf(st);
      Find(st, f, name)
    else if frame == "TF" then
      var f :- GetTf(st);
      Find(st, f, name)
    else Err(VariableAccess)
  }

  /** `FrameStack::lookup`: as `lookup_internal`, a frame-access error reported as a variable-access error. */
  function Lookup(st: Store, iden: string): (r: Result<(nat, nat)>)
    requires st.Valid()
    ensures r.Err? ==> r.error != FrameAccess
    ensures r.Ok? ==> r.value.0 < |st.frames| && r.value.1 < |st.frames[r.value.0]|
    ensures r.Ok? <==> LookupInternal(st, iden).Ok?
    ensures r.Ok? ==> r == LookupInternal(st, iden)
    ensures r.Ok? ==> NamePart(iden).Some? && st.frames[r.value.0][r.value.1].iden == NamePart(iden).value
    ensures LookupInternal(st, iden) == Err(FrameAccess) ==> r == Err(VariableAccess)
    ensures LookupInternal(st, iden).Err? && LookupInternal(st, iden).error != FrameAccess ==> r == LookupInternal(st, iden)
  {
    match LookupInternal(st, iden)
    case Err(FrameAccess) => Err(VariableAccess)
    case other => other
  }

  /** Frame `f` with `s` inserted. */
  function InsertInto(st: Store, f: nat, s: Slot): (r: Store)
    requires st.Valid() && f < |st.frames|
    ensures r.Valid()
  {
    st.(frames := st.frames[f := Insert(st.frames[f], s)])
  }

  /**
   * `FrameStack::insert_var`: an untyped variable named by the name part
   * goes into the prefixed frame. An unknown prefix inserts nothing.
   */
  function InsertVar(st: Store, iden: string): (r: Result<Store>)
    requires st.Valid()
    ensures r.Ok? ==> r.value.Valid()
    ensures NamePart(iden).None? ==> r == Err(EngineTypeError)
    ensures NamePart(iden).Some? && Designated(st, FramePart(iden)).Some? ==>
      r == Ok(InsertInto(st, Designated(st, FramePart(iden)).value, Untyped(NamePart(iden).value)))
    ensures NamePart(iden).Some? && ((FramePart(iden) == "TF" && st.tf.None?) || (FramePart(iden) == "LF" && |st.lf| == 0)) ==>
      r == Err(FrameAccess)
    ensures NamePart(iden).Some? && FramePart(iden) == "LF" && |st.lf| > 0 && st.lf[|st.lf| - 1].None? ==>
      r == Err(EngineTypeError)
    ensures NamePart(iden).Some? && !KnownPrefix(FramePart(iden)) ==> r == Ok(st)
  {
    var frame := FramePart(iden);
    var name := NamePart(iden);
    if name.None? then Err(EngineTypeError)
    else if frame == "GF" then Ok(InsertInto(st, 0, Untyped(name.value)))
    else if frame == "LF" then
      var f :- GetLf(st);
      Ok(InsertInto(st, f, Untyped(name.value)))
    else if frame == "TF" then
      var f :- GetTf(st);
      Ok(InsertInto(st, f, Untyped(name.value)))
    else Ok(st)
  }

  /**
   * The effect of `defvar iden`: a reference that resolves is a redefinition;
   * otherwise the name goes into the designated frame, which must exist.
   */
  function DefVar(st: Store, iden: string): (r: Result<Store>)
    requires st.Valid()
    ensures r.Ok? ==> r.value.Valid()
    ensures Lookup(st, iden).Ok? ==> r == Err(VariableRedefinition)
    ensures r.Ok? <==>
      Lookup(st, iden).Err? && NamePart(iden).Some? &&
      (Designated(st, FramePart(iden)).Some? || !KnownPrefix(FramePart(iden)))
    ensures r.Ok? && Designated(st, FramePart(iden)).Some? ==>
      r.value == InsertInto(st, Designated(st, FramePart(iden)).value, Untyped(NamePart(iden).value))
    ensures r.Ok? && Designated(st, FramePart(iden)).None? ==> r.value == st
    ensures NamePart(iden).Some? && ((FramePart(iden) == "TF" && st.tf.None?) || (FramePart(iden) == "LF" && |st.lf| == 0)) ==>
      r == Err(FrameAccess)
  {
    match Lookup(st, iden)
    case Ok(_) => Err(VariableRedefinition)
    case Err(e) =>
      if e == FrameAccess || e == VariableAccess then InsertVar(st, iden) else Err(e)
  }

  /** Slot `k` of frame `f` replaced by `s`. */
  function SetSlot(st: Store, f: nat, k: nat, s: Slot): (r: Store)
    requires st.Valid() && f < |st.frames| && k < |st.frames[f]|
    ensures r.Valid()
  {
    st.(frames := st.frames[f := st.frames[f][k := s]])
  }

  /**
   * `lookup(iden)->set_value(t, v)`: the referenced variable takes type `t`
   * and value `v`; an unresolved reference or an unsettable type is an error.
   */
  function SetVar(st: Store, iden: string, t: string, v: string): (r: Result<Store>)
    requires st.Valid()
    ensures r.Ok? ==> r.value.Valid()
    ensures r.Ok? <==> Lookup(st, iden).Ok? && SettableType(t)
    ensures Lookup(st, iden).Err? ==> r == Err(Lookup(st, iden).error)
    ensures Lookup(st, iden).Ok? && !SettableType(t) ==> r == Err(InternalError)
    ensures r.Ok? ==>
      var at := Lookup(st, iden).value;
      r.value == SetSlot(st, at.0, at.1, Slot(st.frames[at.0][at.1].iden, t, Some(v)))
  {
    var at :- Lookup(st, iden);
    var s :- Assign(SlotAt(st, at), t, v);
    Ok(SetSlot(st, at.0, at.1, s))
  }

  /** The slot a successful lookup designates. */
  function SlotAt(st: Store, at: (nat, nat)): Slot
    requires st.Valid() && at.0 < |st.frames| && at.1 < |st.frames[at.0]|
  {
    st.frames[at.0][at.1]
  }
}

=== FILE: strings.dfy ===
/**
 * The two PHP string primitives the frame stack relies on to read a
 * variable reference such as `GF@counter`: `strtoupper` (ASCII only) and
 * `explode("@", ...)`.
 */
module Strings {
  import opened Base

  function UpperChar(c: char): char
  {
    if 'a' <= c <= 'z' then (c as int - 32) as char else c
  }

  /** `strtoupper`: ASCII letters are upper-cased, every other character is kept. */
  function Upper(s: string): (r: string)
    ensures |r| == |s|
    ensures forall i :: 0 <= i < |s| ==> r[i] == UpperChar(s[i])
  {
    if s == [] then [] else [UpperChar(s[0])] + Upper(s[1..])
  }

  lemma {:induction false} UpperIdempotent(s: string)
    ensures Upper(Upper(s)) == Upper(s)
  {
    if s != [] {
      UpperIdempotent(s[1..]);
      assert Upper(s)[1..] == Upper(s[1..]);
    }
  }

  /** The inverse of `explode`: the parts joined by '@'. */
  function Implode(parts: seq<string>): string
    requires |parts| >= 1
  {
    if |parts| == 1 then parts[0] else parts[0] + "@" + Implode(parts[1..])
  }

  /** `explode("@", s)`: the maximal '@'-free pieces of `s`, in order. */
  function Explode(s: string): (parts: seq<string>)
    ensures |parts| >= 1
    ensures forall i :: 0 <= i < |parts| ==> '@' !in parts[i]
    ensures Implode(parts) == s
  {
    if s == [] then [""]
    else if s[0] == '@' then [""] + Explode(s[1..])
    else
      var rest := Explode(s[1..]);
      [[s[0]] + rest[0]] + rest[1..]
  }

  /** Splitting the join of '@'-free parts gives back the parts. */
  lemma {:induction false} ExplodeImplode(parts: seq<string>)
    requires |parts| >= 1
    requires forall i :: 0 <= i < |parts| ==> '@' !in parts[i]
    ensures Explode(Implode(parts)) == parts
  {
    if |parts| == 1 {
      AtFreeExplode(parts[0]);
    } else {
      ExplodeImplode(parts[1..]);
      ExplodeAfter(parts[0], Implode(parts[1..]));
      assert parts == [parts[0]] + parts[1..];
    }
  }

  /** An '@'-free string explodes to itself alone. */
  lemma {:induction false} AtFreeExplode(p: string)
    requires '@' !in p
    ensures Explode(p) == [p]
  {
    if p != [] {
      AtFreeExplode(p[1..]);
      assert [p[0]] + p[1..] == p;
    }
  }

  /** An '@'-free head followed by '@' becomes a part of its own. */
  lemma {:induction false} ExplodeAfter(p: string, rest: string)
    requires '@' !in p
    ensures Explode(p + "@" + rest) == [p] + Explode(rest)
  {
    if p == [] {
      assert p + "@" + rest == ['@'] + rest;
      assert (['@'] + rest)[1..] == rest;
    } else {
      var s := p + "@" + rest;
      assert s[0] == p[0] && s[1..] == p[1..] + "@" + rest;
      ExplodeAfter(p[1..], rest);
      var tail := Explode(s[1..]);
      assert tail == [p[1..]] + Explode(rest);
      assert Explode(s) == [[p[0]] + tail[0]] + tail[1..];
      assert [p[0]] + p[1..] == p;
    }
  }

  /** `explode` gives a single part exactly when there is no '@' to split at. */
  lemma SinglePart(s: string)
    ensures |Explode(s)| == 1 <==> '@' !in s
  {
    if '@' !in s {
      AtFreeExplode(s);
    }
    if |Explode(s)| == 1 {
      assert Implode(Explode(s)) == Explode(s)[0];
    }
  }

  /** The frame part of a variable reference: `explode("@", s)[0]` upper-cased. */
  function FramePart(s: string): (r: string)
    ensures '@' !in s ==> r == Upper(s)
  {
    SinglePart(s);
    Upper(Explode(s)[0])
  }

  /**
   * The name part of a variable reference: `explode("@", s)[1]`, which PHP
   * evaluates to null (with a warning) when `s` holds no '@'.
   */
  function NamePart(s: string): (r: Option<string>)
    ensures r.None? <==> '@' !in s
    ensures r.Some? ==> '@' !in r.value
  {
    var parts := Explode(s);
    SinglePart(s);
    if |parts| > 1 then Some(parts[1]) else None
  }

  /** A reference `p@n` with '@'-free parts has frame part `Upper(p)` and name `n`. */
  lemma ReferenceParts(p: string, n: string)
    requires '@' !in p && '@' !in n
    ensures FramePart(p + "@" + n) == Upper(p)
    ensures NamePart(p + "@" + n) == Some(n)
  {
    ExplodeImplode([p, n]);
    assert Implode([p, n]) == p + "@" + n;
  }
}
